=== FILE: README.md ===
# Azure DevOps connector — a Dafny model

This project models the core of a small connector between a web application
and the Azure DevOps REST API. It covers two parts:

- `AdoClient` (`src/client.ts`): configuration, URL construction, paginated
  listing with a `top`/`skip` window, run creation with its request body and
  best-effort tagging, cancellation, branch listing, and the aggregated
  "pipelines with latest run, artifacts and commit subject" listing.
- `handleRequest` (`src/handler.ts`): the router that maps a request path
  and method to a client operation and turns thrown errors into HTTP
  statuses.

HTTP is replaced by an oracle (`Transport.Oracle`), a deterministic function
from a request to either a JSON value or a failure. Every operation returns
its result together with the list of upstream requests it issued, in the
order a sequential run issues them (`Transport.Reply`). That makes "which
calls go out, to which URL, with which body" part of every contract. A failure is one of three kinds:

- a non-2xx response;
- any other thrown JavaScript error;
- a call that never settles (`Hang`).

Modules, in dependency order:

| file | module | what it holds |
|---|---|---|
| wrappers.dfy | `Wrappers` | `Option`, `Result` |
| js_text.dfy | `JsText` | JavaScript number printing, `parseInt` without a radix, `\s`, `split('\n')[0]`, `String.replace` with a string pattern |
| js_value.dfy | `JsValue` | JSON values with JavaScript truthiness, property reads, `\|\|`, template-literal interpolation, `Object.entries` |
| transport.dfy | `Transport` | requests, failures and their messages, the oracle, `Promise.all` |
| paging.dfy | `Paging` | `fetchAllPaged` (as a function and as a loop), the chain theorem, `slice` and the `top`/`skip` window |
| run_body.dfy | `RunBody` | the body `runPipeline` posts, including the strict-mode TypeError of writing the branch into a primitive |
| client.dfy | `Client` | the `AdoClient` operations |
| enrichment.dfy | `Enrichment` | `getPipelinesWithLatestRunAndArtifacts` and its fault containment |
| router.dfy | `Router` | `handleRequest`: path parsing, dispatch, the error-to-status mapping |

Two consequences of the code as written are modelled as written, not corrected:

- The router's listing branch is unreachable. `parseInt(id)` is checked for
  NaN before the `!id` test, so `pipelines` alone is answered 400 "Invalid
  Pipeline ID" (`Router.ListingUnreachable`).
- A `null` entry in the pipeline listing escapes the per-pipeline `catch`.
  The `catch` logs `p.id`, which throws again, so the whole aggregate
  rejects (`Enrichment.EnrichItem`).

## Model

| member | source | states |
|---|---|---|
| JsText.NatToString | src/client.ts:71 | `${n}` for a non-negative integer is a non-empty digit string with no leading zero; it has one digit exactly when n < 10 |
| JsText.NatToStringValue | src/client.ts:34 | reading the decimal digits of a printed number back gives the number |
| JsText.ParseIntLeadingNumber | src/handler.ts:27 | `parseInt` returns the leading decimal number and ignores what follows it, when the next character is not a digit and the number is not a `0` that opens a `0x` prefix |
| JsText.ParseIntNoDigits | src/handler.ts:27-28 | a string starting with anything but whitespace, a sign or a digit parses as NaN |
| JsText.ParseIntRoundTrip | src/handler.ts:60 | for every integer, parsing its printed form gives it back |
| JsText.ParseInt | src/handler.ts:27 | `parseInt` of a string that is blank after whitespace is NaN; a number comes only from text that starts, after whitespace, with a digit or a sign, and a negative number only after `-`; a decimal digit not opening `0x` gives the value of the longest run of digits |
| JsText.TrimStart | src/handler.ts:27 | the text `parseInt` skips is a prefix made only of `\s` characters, and what remains does not start with one |
| JsText.DigitPrefix | src/handler.ts:27 | the digits `parseInt` reads are the longest prefix made of digits of the radix |
| JsText.FirstLine | src/client.ts:276 | `split('\n')[0]` is a prefix of the text, contains no line feed, and ends at the first line feed or at the end of the text |
| JsText.IndexOfFrom | src/client.ts:243 | the position `replace` acts on is an occurrence of the pattern, and no earlier position is one |
| JsText.RemoveFirstOfPrefix | src/client.ts:243 | removing a pattern that starts the text leaves the rest of the text |
| JsText.RemoveFirstShape | src/client.ts:243 | `replace(pat, '')` removes the earliest occurrence of the pattern and keeps the text before and after it; the text is unchanged exactly when the pattern is empty or absent |
| JsValue.Get | src/client.ts:44 | a property read finds a value exactly when the value is an object that has that key |
| JsValue.Or | src/client.ts:44 | `a \|\| b` is `a` when `a` is truthy and `b` otherwise, so it is truthy exactly when either operand is |
| JsValue.Put | src/client.ts:283 | building the record literal sets one key, or leaves it out when its value is `undefined`, and leaves every other key as it was |
| JsValue.IndexMapContents | src/client.ts:193 | `Object.entries` of an array or string yields exactly the keys "0", "1", ... up to the length, each bound to its element |
| Transport.FetchJson | src/client.ts:24-37 | `fetchJson` issues exactly the one request it is given, and its outcome is upstream's answer to that request |
| Transport.JoinAll | src/client.ts:154-161 | `Promise.all` gives every value in order when all members succeed; otherwise it rejects with the first rejection in index order, and it hangs only when no member rejects |
| Paging.PageItems | src/client.ts:44-45 | a page adds no items when its `value` is falsy, all of its `value` elements when that is an array, and the `value` itself as one item when it is any other truthy value |
| Paging.PageToken | src/client.ts:46 | a page names a next page exactly when its `continuationToken` is truthy, and the token is that value |
| Paging.PagesFrom | src/client.ts:42-48 | paging issues only GETs, the first to the current address and every follow-up to the seed URL with a token appended; a failing first page fails the listing with that page's error |
| Paging.PagesFromSteps | src/client.ts:39-50 | each call after the first asks for the seed URL followed by the token of the page the previous call received, so every call but the last succeeded with a tokened page; a failing or null last page is the listing's failure; a successful listing ends on a page with no token |
| Paging.FetchAllPaged | src/client.ts:39-50 | `fetchAllPaged(url)` first asks for `url`, then only for the seed URL followed by a continuation token |
| Paging.FetchAllPagedLoop | src/client.ts:39-50 | the `while (nextUrl)` loop as written computes the same items and the same calls as the recursive definition |
| Paging.ChainIsConcatenation | src/client.ts:42-49 | for a chain of pages P1..Pn that upstream serves, the listing is the concatenation of their items in page order, made with one GET per page at the chain's addresses |
| Paging.SliceIndex | src/client.ts:65 | a `slice` position within 0..length is kept, a negative one within -length..-1 counts from the end, and any other is clamped to 0 or the length |
| Paging.Slice | src/client.ts:65 | `slice(start, end)` is the contiguous run from the clamped start to the clamped end, empty when the end does not lie after the start, and the whole suffix when no end is given |
| Paging.Window | src/client.ts:61-66 | no `top` and no `skip` keep every item; otherwise the result is the contiguous run starting at `skip \|\| 0`; with a non-zero `top` it ends at the clamped `start + top`, so a negative `top` drops items from the end and a positive one gives `all[skip..skip+top]` cut at the end; no cap when `top` is falsy; empty when `skip` is past the end |
| Paging.WindowStartsAtSkip | src/client.ts:62-65 | the window begins with item `skip` whenever that item exists |
| Paging.WindowExample | src/client.ts:62-66 | 23 items with `top` 10 and `skip` 5 give items 5 to 14 |
| RunBody.AssignPath | src/client.ts:180-185 | the `x = x \|\| {}` chain fails exactly on a primitive container; otherwise it writes the branch at `resources.repositories.self.refName`, and an object stays an object |
| RunBody.AssignPathKeepsOthers | src/client.ts:180-185 | writing the branch loses no other key at any level of the path |
| RunBody.NormalizeVariable | src/client.ts:194-198 | a string variable becomes `{value: s}`; any other value is kept as given |
| RunBody.NormalizeVariables | src/client.ts:191-200 | the normalised variables have exactly the keys of `Object.entries(options.variables)`, each one normalised |
| RunBody.BuildRunBody | src/client.ts:174-200 | the posted body has only `resources`, `templateParameters` and `variables`, each present exactly when its option is truthy; without a branch, `resources` pass through untouched; with a branch, the body fails exactly on a primitive container and otherwise carries the branch at `refName` |
| RunBody.BranchKeepsResources | src/client.ts:176-185 | adding a branch keeps every resource the caller supplied |
| Client.New | src/client.ts:15-22 | construction fails exactly when organization, project or pat is empty (the configuration error) or the pat has a character outside Latin-1 (`base64.encode` throws); an empty or missing api version becomes 7.1; the base URL is exactly `https://dev.azure.com/{organization}/{project}/_apis` |
| Client.FetchAndWindow | src/client.ts:56-67 | a listing makes the calls of the full paged fetch; `total` counts every fetched item, and `items` is the window of them |
| Client.ListPipelines | src/client.ts:52-68 | the first call asks for `/pipelines` with `top` forwarded; the listing succeeds exactly when fetching every page does; `total` is the size of the whole collection and `items` is its `top`/`skip` window |
| Client.ListPipelineRuns | src/client.ts:75-90 | the same for `/pipelines/{id}/runs`: success exactly when every page is fetched, the whole count as `total`, the window as `items` |
| Client.GetPipeline | src/client.ts:70-73 | one GET of `/pipelines/{id}` with the api version; upstream's answer is returned as is |
| Client.GetRun | src/client.ts:92-95 | one GET of `/pipelines/{id}/runs/{runId}`; upstream's answer as is |
| Client.GetCommit | src/client.ts:106-109 | one GET of `/git/repositories/{repo}/commits/{commit}`; upstream's answer as is |
| Client.ListBuildArtifacts | src/client.ts:97-104 | one GET of the build's artifacts; it succeeds exactly when upstream answers with a non-null page, and the result is then `value`, or `[]` when `value` is falsy; a null page fails on reading `value` |
| Client.AddRunTags | src/client.ts:154-161 | one POST per tag, in order, with the bare tag as body and no api version; it succeeds exactly when every call does, with their answers in order |
| Client.CancelRun | src/client.ts:228-236 | one PATCH of `/build/builds/{runId}` asking for status `cancelling`; upstream's answer as is |
| Client.CancelIgnoresPipeline | src/client.ts:231 | the pipeline id takes no part in a cancellation |
| Client.TagStep | src/client.ts:207-223 | tags are posted only when there are tags and the run has a truthy id, one `{name: tag}` POST per tag; a non-null run is returned unchanged whenever no tag call hangs, whatever the calls answer; a null run with tags fails reading `id` before any call; when some tag call hangs and none rejects, the run never settles |
| Client.RunPipeline | src/client.ts:164-226 | the run is created by a POST of the built body to `/pipelines/{id}/runs`; a failed POST is that failure after that one call; otherwise the outcome and the later calls are those of the tag step on the created run |
| Client.CreatedRunSurvivesTagging | src/client.ts:207-225 | a created run comes back from `runPipeline` unchanged whatever the tag calls answer, provided none of them hangs |
| Client.MapBranches | src/client.ts:242-245 | mapping the refs succeeds exactly when every ref has a string `name`; each branch keeps the full ref and shows it with the first `refs/heads/` removed, count and order preserved; a null `name` fails reading `replace` of null |
| Client.ListBranches | src/client.ts:238-247 | one GET of the repository's heads; an upstream failure is passed on and a null page fails reading `value`; it succeeds exactly when `value \|\| []` is an array whose every ref has a string name, giving one branch per ref in order |
| Client.BranchNameOfHead | src/client.ts:243 | a fully qualified head loses exactly its `refs/heads/` prefix (`refs/heads/feature/x` shows as `feature/x`) |
| Enrichment.LatestOf | src/client.ts:255 | the latest run is the first listed run when that is truthy, and null otherwise |
| Enrichment.ArtifactsStep | src/client.ts:256-264 | artifacts are fetched only when the latest run has a truthy build id, at `resources.build.id` or else `build.id`; a successful lookup gives its artifacts, any catchable failure of the lookup (a null page included) leaves `[]`; a lookup that hangs hangs the step, and with no hang the step always succeeds |
| Enrichment.SubjectStep | src/client.ts:266-281 | the commit is fetched only for a latest run that names a repository id and a version; a fetched commit gives the first line of its comment, or null when the comment is not a string; a failed fetch leaves null; a commit fetch that hangs hangs the step, and with no hang the step always succeeds |
| Enrichment.Record | src/client.ts:283 | the enriched record carries the pipeline's id, name and web link, the latest run, the artifacts and the subject, and no other key |
| Enrichment.EnrichItem | src/client.ts:252-288 | a pipeline whose run listing fails comes back exactly as listed; otherwise it is the enriched record; a null entry fails on reading `id`, and nothing else but a hang fails; when the run listing, the artifacts step and the subject step all succeed, the result is the record built from their values |
| Enrichment.EnrichItemSettles | src/client.ts:252-288 | a non-null pipeline whose run listing does not hang and none of whose requests hangs is always enriched successfully |
| Enrichment.NoRunMeansEmptyEnrichment | src/client.ts:254-283 | a pipeline without runs gets `latestRun: null`, `artifacts: []` and `commitSubject: null` after one listing call only |
| Enrichment.ListEnriched | src/client.ts:250-290 | the aggregate lists the pipelines once, then succeeds exactly when every per-pipeline task does, keeping `total` and the listing's order |
| Enrichment.FaultContainment | src/client.ts:284-287 | when no listed pipeline is null, no run listing hangs and no request of any item hangs, the batch succeeds: one pipeline's failure never fails it, and that pipeline appears as listed |
| Router.AbsentSegmentIsNaN | src/handler.ts:27-28 | a missing or empty path segment never parses as a number |
| Router.PathOf | src/handler.ts:23 | the destructured path has no resource exactly when there are no segments, and an absent id or run id reads as NaN |
| Router.RouteOutline | src/handler.ts:19-118 | only the bare root is the descriptor; the listings are never dispatched; the router itself throws only for a null PATCH body on a run, with the null-read message; other resources are not found |
| Router.PipelineLevelRoute | src/handler.ts:26-69 | a pipelines request is answered 400 exactly when the id does not parse; GET with nothing after the id reads that pipeline; every pipeline operation receives the parsed id |
| Router.RunsLevelRoute | src/handler.ts:70-83 | `pipelines/:id/runs`: GET lists the runs with the query's `top`/`skip` (or `$top`/`$skip`), POST triggers a run with the parsed body, and no other request does either |
| Router.RunLevelRoute | src/handler.ts:84-102 | `pipelines/:id/runs/:runId`: 400 exactly when the run id does not parse; GET reads the run; PATCH cancels exactly when `state` is "canceling", and any other non-null body is not found |
| Router.BuildsLevelRoute | src/handler.ts:106-115 | `builds/:id/artifacts`: 400 exactly when the id does not parse, GET lists the artifacts of the parsed id, and any other `builds` path is not found |
| Router.ListingUnreachable | src/handler.ts:26-58 | `pipelines` alone is answered 400 whatever the method, so the listing branch is dead |
| Router.TrailingSegmentsIgnored | src/handler.ts:23 | segments after the fourth never change the dispatch |
| Router.GetRunPathRoundTrip | src/handler.ts:85-91 | GET `pipelines/${p}/runs/${r}` reads run r of pipeline p, for all integers p and r |
| Router.LeadingDigitsId | src/handler.ts:60-68 | `pipelines/7abc` reads pipeline 7: trailing non-digits after an id are ignored |
| Router.NonNumericPipelineId | src/handler.ts:27-29 | an id that starts with a non-digit such as `abc` is answered 400, whatever follows |
| Router.StatusOf | src/handler.ts:125-126 | the status is the three leading digits when whitespace follows them, and 500 otherwise; it is always within 0..999 |
| Router.UpstreamStatusPreserved | src/handler.ts:124-126 | an upstream error with a three-digit status keeps that status through the "status text - body" message of `fetchJson` |
| Router.ErrorResponse | src/handler.ts:120-128 | a caught error is answered with the status its message carries and `{error: message}` exactly when that status is 200..599 and not 204, 205 or 304; otherwise building the answer throws; a hang is never answered |
| Router.Answer | src/handler.ts:18-129 | the root is answered 200 with the descriptor; an outcome that is not a call touches no upstream and is answered 400 or 404 as routed; an error the router throws is answered with the status its message carries exactly when a response may carry that status; every non-200 answer carries an `error` field; a dispatched call is answered 200 with upstream's data or as its error is answered, after exactly the upstream requests the call made |
| Router.NullPatchAnswered500 | src/handler.ts:124-126 | the TypeError a null PATCH body raises (reading a property of null) carries no status, whatever the property, so it is answered 500 |
| Router.UpstreamErrorStatus | src/handler.ts:124-128 | a dispatched call that fails upstream with a three-digit status s is answered with status s and the error message when a response may carry s, and otherwise answering throws |
| Router.RoutePath | src/handler.ts:19-118 | only a path with no resource is the descriptor; reads and listings are dispatched only for GET, a run only for POST and a cancel only for PATCH; the router throws only for PATCH with a null body; the only 400 messages are the three invalid-id ones; resources other than `pipelines` and `builds` are not found |
| Router.Dispatch | src/handler.ts:19-23 | no segments is the descriptor and nothing else is; a first segment other than `pipelines` or `builds` is not found; a single segment is never dispatched to a call |
| Router.Execute | src/handler.ts:52-112 | each routed operation issues its request to the URL the client builds from the decimal ids: GET `/pipelines/{id}`, GET `/pipelines/{id}/runs/{runId}`, PATCH `/build/builds/{runId}` with `{status: cancelling}`, GET `/build/builds/{id}/artifacts`, the first page of a listing, and the POST of a new run; a single read or cancel answers exactly what its request answers |

## Left out

- Authentication and the `Authorization` header: the header value is not modelled. The only effect of `base64.encode` that is modelled is its failure on a character outside Latin-1.
- Real HTTP, `res.ok`, `res.json()` and `res.text()` are not modelled. The oracle stands for them: a non-2xx response is a `HttpError` carrying status, status text and body text.
- `NextRequest`, `NextResponse` and `context.params` are not modelled. The router takes the path segments, the method, the query map and the body. A body that does not parse as JSON is `None`, which becomes `{}`.
- Floating-point numbers are not modelled. JSON numbers in bodies and upstream answers are integers, so a fractional JSON number cannot be expressed. Query values are strings read by `parseInt`, which stops at `.`, so `?top=2.5` reads 2 in both JavaScript and the model.
- JsText.NatToString: JavaScript numbers are doubles. `${n}` prints an integer of 1e21 or more in exponent form (`1e+21`), and an integer above 2^53 is already rounded. The model prints every natural number as its exact digits.
- JsText.ParseIntLeadingNumber: JavaScript's `parseInt` rounds a value above 2^53 to the nearest double (`parseInt("9007199254740993")` is 9007199254740992). The model returns the exact integer, so the lemma matches JavaScript only for magnitudes up to 2^53.
- JsText.ParseIntRoundTrip: printing then parsing returns the integer in JavaScript only for magnitudes up to 2^53. Past that the value is rounded, and from 1e21 on the printed exponent form parses to its leading digit. The model's integers are unbounded.
- Router.GetRunPathRoundTrip: a pipeline or run id above 2^53 in magnitude reaches the client rounded in JavaScript. The lemma, like the model, uses exact integers.
- Router.LeadingDigitsId: a pipeline id above 2^53 is dispatched rounded in JavaScript. The model dispatches the exact integer.
- Object key order is not modelled (objects are maps), so the order of keys in serialised output is not stated.
- Transport.JoinAll: `Promise.all` settles on the first rejection in time. The model picks the first in index order, because the oracle has no timing.
- Paging.PagesFrom: `fetchAllPaged` loops for as long as upstream keeps returning tokens. The model follows at most `pageBudget` pages and reports a longer listing as `Hang`, the same outcome as a listing that never ends.
- `fetchAllPaged`'s `itemsKey` parameter is always its default `value` at every call site, so it is fixed to `value`.
- `encodeURIComponent` is a parameter of the oracle (`encode`) and is not defined.
- TypeError messages are represented by `NullRead` and `NotAFunction`. Only their use in status extraction matters, and none of them starts with three digits.
- Client.TagStep: `options.tags.length > 0` on a value whose `length` is a string is approximated by `HasPositiveLength`, which counts only numeric and boolean `length` properties.
- Router.Answer: when the status an error message carries is outside 200..599, or is 204, 205 or 304, the `Response` constructor throws a RangeError or a TypeError inside the `catch`, so `handleRequest` rejects. The model marks that answer `Escaped` and does not model what the framework then sends.
- Router.UpstreamErrorStatus: stated only for three-digit statuses. A status outside 100..999 prints with another number of digits, so its message carries no three-digit status. The lemma does not cover that case.
- JsValue.IndexMapContents: `Object.entries` of a string walks UTF-16 code units, so a character outside the Basic Multilingual Plane gives two entries, one per surrogate. The model's strings are sequences of Unicode scalar values and give one entry. This reaches `normalizeVariables` when `options.variables` is a string.
- Enrichment.ListEnriched: the per-pipeline tasks run concurrently. Each task's first request goes out in index order, and later requests interleave by completion. The model lists the calls pipeline by pipeline, which fixes which requests go out but not their order in time.
- Console logging (`console.warn` and `console.error`) is left out.
- The demo application and `verify_pagination.ts` are outside the core.
- `listBranches` is modelled as a client operation only, because `handleRequest` routes no path to it.


=== FILE: client.dfy ===
/** `AdoClient`: configuration, URL construction and the REST operations,
    over the transport oracle. Identifiers are passed as the text `AdoClient`
    interpolates into its URLs (`${id}`). */
module Client {
  import opened Wrappers
  import opened JsText
  import opened JsValue
  import opened Transport
  import opened Paging
  import opened RunBody

  datatype Config = Config(organization: string, project: string, pat: string, apiVersion: Option<string>)

  /** The immutable state of a constructed client. The credential only feeds
      the authorisation header, whose value is not modelled. */
  datatype AdoClient = AdoClient(baseUrl: string, apiVersion: string)

  const DefaultApiVersion := "7.1"
  const ConfigError := "Missing ADO configuration (organization, project, or pat)"
  const Latin1Error := "The string to be encoded contains characters outside of the Latin1 range."

  /** What `base64.encode` accepts: every character within U+0000..U+00FF. */
  predicate Latin1(s: string) {
    forall i :: 0 <= i < |s| ==> s[i] <= '\U{FF}'
  }

  /** The constructor: organization, project and pat must all be non-empty,
      and the pat must be encodable for the basic-auth header; an empty or
      missing api version falls back to 7.1. */
  function New(cfg: Config): (r: Result<AdoClient, Failure>)
    ensures r.Failure? <==> cfg.organization == "" || cfg.project == "" || cfg.pat == "" || !Latin1(cfg.pat)
    ensures cfg.organization == "" || cfg.project == "" || cfg.pat == "" ==> r == Failure(Thrown(ConfigError))
    ensures r.Failure? && cfg.pat != "" && cfg.organization != "" && cfg.project != "" ==>
      r == Failure(Thrown(Latin1Error))
    ensures r.Success? ==> r.value.apiVersion != ""
    ensures r.Success? && cfg.apiVersion.Some? && cfg.apiVersion.value != "" ==> r.value.apiVersion == cfg.apiVersion.value
    ensures r.Success? && (cfg.apiVersion.None? || cfg.apiVersion.value == "") ==> r.value.apiVersion == DefaultApiVersion
    ensures r.Success? ==> r.value.baseUrl == "https://dev.azure.com/" + cfg.organization + "/" + cfg.project + "/_apis"
  {
    if cfg.organization == "" || cfg.project == "" || cfg.pat == "" then Failure(Thrown(ConfigError))
    else if !Latin1(":" + cfg.pat) then
      assert !Latin1(cfg.pat) by {
        var i :| 0 <= i < |":" + cfg.pat| && (":" + cfg.pat)[i] > '\U{FF}';
        assert i > 0 && (":" + cfg.pat)[i] == cfg.pat[i - 1];
      }
      Failure(Thrown(Latin1Error))
    else
      assert Latin1(cfg.pat) by {
        forall i | 0 <= i < |cfg.pat|
          ensures cfg.pat[i] <= '\U{FF}'
        {
          assert (":" + cfg.pat)[i + 1] == cfg.pat[i];
        }
      }
      var version := if cfg.apiVersion.Some? && cfg.apiVersion.value != "" then cfg.apiVersion.value else DefaultApiVersion;
      Success(AdoClient("https://dev.azure.com/" + cfg.organization + "/" + cfg.project + "/_apis", version))
  }

  /** `&top=${top}` when `top` was supplied (even when it is 0 or NaN). */
  function TopParam(top: Option<Num>): string {
    if top.Some? then "&top=" + NumToString(top.value) else ""
  }

  function Versioned(c: AdoClient, path: string): string {
    c.baseUrl + path + "?api-version=" + c.apiVersion
  }

  /** `{ total, items }` of a listing. */
  datatype Listing = Listing(total: nat, items: seq<Json>)

  function ListingJson(l: Listing): Json {
    JObj(map["total" := JNum(l.total), "items" := JArr(l.items)])
  }

  /** The policy `listPipelines` and `listPipelineRuns` share: fetch every
      page, count them all, then window. */
  function FetchAndWindow(o: Oracle, url: string, top: Option<Num>, skip: Option<Num>): (r: Reply<Listing>)
    ensures r.calls == FetchAllPaged(o, url).calls
    ensures r.result.Success? <==> FetchAllPaged(o, url).result.Success?
    ensures r.result.Failure? ==> r.result.error == FetchAllPaged(o, url).result.error
    ensures r.result.Success? ==>
      var all := FetchAllPaged(o, url).result.value;
      && r.result.value.total == |all|
      && r.result.value.items == Window(all, top, skip)
      && r.result.value.total >= |r.result.value.items|
  {
    var fetched := FetchAllPaged(o, url);
    match fetched.result
    case Failure(e) => Reply(Failure(e), fetched.calls)
    case Success(all) => Reply(Success(Listing(|all|, Window(all, top, skip))), fetched.calls)
  }

  /** `listPipelines(top, skip)`: the first call asks for the pipeline
      collection with the caller's `top` forwarded; `total` counts the whole
      collection whatever `top` and `skip` are. */
  function ListPipelines(o: Oracle, c: AdoClient, top: Option<Num>, skip: Option<Num>): (r: Reply<Listing>)
    ensures o.pageBudget > 0 ==> |r.calls| >= 1 && r.calls[0] == GetRequest(Versioned(c, "/pipelines") + TopParam(top))
    ensures r.result.Success? ==>
      var fetched := FetchAllPaged(o, Versioned(c, "/pipelines") + TopParam(top)).result;
      fetched.Success? && r.result.value.total == |fetched.value|
    ensures r.result.Success? <==> FetchAllPaged(o, Versioned(c, "/pipelines") + TopParam(top)).result.Success?
    ensures r.result.Success? ==>
      r.result.value.items == Window(FetchAllPaged(o, Versioned(c, "/pipelines") + TopParam(top)).result.value, top, skip)
    ensures r.result.Success? ==> r.result.value.total >= |r.result.value.items|
  {
    FetchAndWindow(o, Versioned(c, "/pipelines") + TopParam(top), top, skip)
  }

  function RunsPath(pipelineId: string): string {
    "/pipelines/" + pipelineId + "/runs"
  }

  /** `listPipelineRuns(pipelineId, top, skip)`: the same policy on the
      pipeline's runs. */
  function ListPipelineRuns(o: Oracle, c: AdoClient, pipelineId: string, top: Option<Num>, skip: Option<Num>): (r: Reply<Listing>)
    ensures o.pageBudget > 0 ==> |r.calls| >= 1 && r.calls[0] == GetRequest(Versioned(c, RunsPath(pipelineId)) + TopParam(top))
    ensures r.result.Success? ==>
      var fetched := FetchAllPaged(o, Versioned(c, RunsPath(pipelineId)) + TopParam(top)).result;
      fetched.Success? && r.result.value.total == |fetched.value|
    ensures r.result.Success? <==> FetchAllPaged(o, Versioned(c, RunsPath(pipelineId)) + TopParam(top)).result.Success?
    ensures r.result.Success? ==>
      r.result.value.items == Window(FetchAllPaged(o, Versioned(c, RunsPath(pipelineId)) + TopParam(top)).result.value, top, skip)
    ensures r.result.Success? ==> r.result.value.total >= |r.result.value.items|
  {
    FetchAndWindow(o, Versioned(c, RunsPath(pipelineId)) + TopParam(top), top, skip)
  }

  /** `getPipeline(id)`: one GET; upstream's record is returned as is. */
  function GetPipeline(o: Oracle, c: AdoClient, id: string): (r: Reply<Json>)
    ensures r.calls == [GetRequest(Versioned(c, "/pipelines/" + id))]
    ensures r.result == o.fetch(r.calls[0])
  {
    FetchJson(o, GetRequest(Versioned(c, "/pipelines/" + id)))
  }

  /** `getRun(pipelineId, runId)`: one GET; upstream's record as is. */
  function GetRun(o: Oracle, c: AdoClient, pipelineId: string, runId: string): (r: Reply<Json>)
    ensures r.calls == [GetRequest(Versioned(c, RunsPath(pipelineId) + "/" + runId))]
    ensures r.result == o.fetch(r.calls[0])
  {
    FetchJson(o, GetRequest(Versioned(c, RunsPath(pipelineId) + "/" + runId)))
  }

  /** `getCommit(repositoryId, commitId)`: one GET; upstream's record as is. */
  function GetCommit(o: Oracle, c: AdoClient, repositoryId: string, commitId: string): (r: Reply<Json>)
    ensures r.calls == [GetRequest(Versioned(c, "/git/repositories/" + repositoryId + "/commits/" + commitId))]
    ensures r.result == o.fetch(r.calls[0])
  {
    FetchJson(o, GetRequest(Versioned(c, "/git/repositories/" + repositoryId + "/commits/" + commitId)))
  }

  /** `listBuildArtifacts(buildId)`: one page only, `r.value || []`. */
  function ListBuildArtifacts(o: Oracle, c: AdoClient, buildId: string): (r: Reply<Json>)
    ensures r.calls == [GetRequest(Versioned(c, "/build/builds/" + buildId + "/artifacts"))]
    ensures o.fetch(r.calls[0]).Failure? ==> r.result == o.fetch(r.calls[0])
    ensures o.fetch(r.calls[0]) == Success(JNull) ==> r.result == Failure(NullRead("value"))
    ensures r.result.Success? <==> o.fetch(r.calls[0]).Success? && o.fetch(r.calls[0]).value != JNull
    ensures r.result.Success? ==> Truthy(r.result.value)
    ensures r.result.Success? ==>
      var page := o.fetch(r.calls[0]).value;
      r.result.value == (if IsTruthy(Get(page, "value")) then Get(page, "value").value else JArr([]))
  {
    var reply := FetchJson(o, GetRequest(Versioned(c, "/build/builds/" + buildId + "/artifacts")));
    match reply.result
    case Failure(e) => reply
    case Success(page) =>
      if page == JNull then Reply(Failure(NullRead("value")), reply.calls)
      else Reply(Success(Or(Get(page, "value"), Some(JArr([]))).value), reply.calls)
  }

  /** `addRunTags`: one POST per tag, in order, each carrying the bare tag
      string and addressed without an api version; it fails if any call
      fails. */
  function AddRunTags(o: Oracle, c: AdoClient, pipelineId: string, runId: string, tags: seq<string>): (r: Reply<seq<Json>>)
    ensures |r.calls| == |tags|
    ensures forall i :: 0 <= i < |tags| ==>
      r.calls[i] == Request("POST", c.baseUrl + RunsPath(pipelineId) + "/" + runId + "/labels", Some(JStr(tags[i])))
    ensures r.result.Success? <==> forall i :: 0 <= i < |tags| ==> o.fetch(r.calls[i]).Success?
    ensures r.result.Success? ==>
      (|r.result.value| == |tags| && forall i :: 0 <= i < |tags| ==> r.result.value[i] == o.fetch(r.calls[i]).value)
  {
    var calls := seq(|tags|, i requires 0 <= i < |tags| =>
      Request("POST", c.baseUrl + RunsPath(pipelineId) + "/" + runId + "/labels", Some(JStr(tags[i]))));
    var outcomes := seq(|calls|, i requires 0 <= i < |calls| => o.fetch(calls[i]));
    assert forall i :: 0 <= i < |tags| ==> outcomes[i] == o.fetch(calls[i]);
    Reply(JoinAll(outcomes), calls)
  }

  /** `cancelRun`: a PATCH of the build whose id is the run id, asking for
      status "cancelling" (double l); upstream's answer is returned as is. */
  function CancelRun(o: Oracle, c: AdoClient, pipelineId: string, runId: string): (r: Reply<Json>)
    ensures r.calls == [Request("PATCH", Versioned(c, "/build/builds/" + runId), Some(JObj(map["status" := JStr("cancelling")])))]
    ensures r.result == o.fetch(r.calls[0])
  {
    FetchJson(o, Request("PATCH", Versioned(c, "/build/builds/" + runId), Some(JObj(map["status" := JStr("cancelling")]))))
  }

  /** The pipeline id plays no part in cancelling. */
  lemma CancelIgnoresPipeline(o: Oracle, c: AdoClient, p1: string, p2: string, runId: string)
    ensures CancelRun(o, c, p1, runId) == CancelRun(o, c, p2, runId)
  {
  }

  /** Any `length` above zero, as `options.tags.length > 0` reads it. */
  predicate HasPositiveLength(v: Json) {
    match v
    case JArr(es) => |es| > 0
    case JStr(s) => |s| > 0
    case JObj(m) => "length" in m && (match m["length"] case JNum(n) => n > 0 case JBool(b) => b case _ => false)
    case _ => false
  }

  /** None of `calls` is left unsettled by upstream. */
  predicate NoHang(o: Oracle, calls: seq<Request>) {
    forall i :: 0 <= i < |calls| ==> o.fetch(calls[i]) != Failure(Hang)
  }

  /** The label call `runPipeline` makes for one tag. */
  function TagRequest(c: AdoClient, pipelineId: string, run: Json, tag: Json): Request {
    Request("POST", Versioned(c, RunsPath(pipelineId) + "/" + Interp(Get(run, "id")) + "/labels"),
            Some(JObj(map["name" := tag])))
  }

  /** The best-effort tag step after a run was created: when `tags` is
      non-empty and the run has a truthy id, one POST per tag with body
      `{name: tag}`; failures are swallowed and the run is returned as is.
      Only a hang, or a null run, escapes. */
  function TagStep(o: Oracle, c: AdoClient, pipelineId: string, tags: Option<Json>, run: Json): (r: Reply<Json>)
    ensures r.result.Success? ==> r.result.value == run
    ensures !(IsTruthy(tags) && HasPositiveLength(tags.value)) ==> r == Reply(Success(run), [])
    ensures |r.calls| > 0 ==>
      && tags.value.JArr?
      && run != JNull && IsTruthy(Get(run, "id"))
      && |r.calls| == |tags.value.elems| > 0
      && forall i :: 0 <= i < |r.calls| ==> r.calls[i] == TagRequest(c, pipelineId, run, tags.value.elems[i])
    ensures IsTruthy(tags) && tags.value.JArr? && |tags.value.elems| > 0 && run != JNull && IsTruthy(Get(run, "id")) ==>
      |r.calls| == |tags.value.elems|
    ensures r.result.Failure? ==> r.result.error == Hang || (run == JNull && r.result.error == NullRead("id"))
    ensures run != JNull && NoHang(o, r.calls) ==> r.result == Success(run)
    ensures run == JNull && IsTruthy(tags) && HasPositiveLength(tags.value) ==> r == Reply(Failure(NullRead("id")), [])
    ensures (exists i :: 0 <= i < |r.calls| && o.fetch(r.calls[i]) == Failure(Hang)) &&
            (forall i :: 0 <= i < |r.calls| ==> o.fetch(r.calls[i]).Success? || o.fetch(r.calls[i]) == Failure(Hang)) ==>
      r.result == Failure(Hang)
  {
    if IsTruthy(tags) && HasPositiveLength(tags.value) then
      if run == JNull then Reply(Failure(NullRead("id")), [])
      else if IsTruthy(Get(run, "id")) then
        var ts := if tags.value.JArr? then tags.value.elems else [];
        var calls := seq(|ts|, i requires 0 <= i < |ts| => TagRequest(c, pipelineId, run, ts[i]));
        var outcomes := seq(|calls|, i requires 0 <= i < |calls| => o.fetch(calls[i]));
        assert forall i :: 0 <= i < |calls| ==> outcomes[i] == o.fetch(calls[i]);
        var settled := JoinAll(outcomes);
        if settled.Failure? && settled.error.Hang? then Reply(Failure(Hang), calls)
        else Reply(Success(run), calls)
      else Reply(Success(run), [])
    else Reply(Success(run), [])
  }

  /** `runPipeline(pipelineId, options)`: builds the body, posts it, then
      runs the best-effort tag step. A created run is returned unchanged
      whatever the tag calls answer. */
  function RunPipeline(o: Oracle, c: AdoClient, pipelineId: string, options: Json): (r: Reply<Json>)
    ensures options == JNull ==> r == Reply(Failure(NullRead("resources")), [])
    ensures options != JNull && BuildRunBody(options).Failure? ==> r == Reply(Failure(BuildRunBody(options).error), [])
    ensures options != JNull && BuildRunBody(options).Success? ==>
      var post := Request("POST", Versioned(c, RunsPath(pipelineId)), Some(BuildRunBody(options).value));
      && |r.calls| >= 1 && r.calls[0] == post
      && (o.fetch(post).Failure? ==> r == Reply(Failure(o.fetch(post).error), [post]))
      && (r.result.Success? ==> o.fetch(post).Success? && r.result.value == o.fetch(post).value)
      && (o.fetch(post).Success? ==> r.calls[1..] == TagStep(o, c, pipelineId, Get(options, "tags"), o.fetch(post).value).calls)
      && (o.fetch(post).Success? ==> r.result == TagStep(o, c, pipelineId, Get(options, "tags"), o.fetch(post).value).result)
  {
    if options == JNull then Reply(Failure(NullRead("resources")), [])
    else
      match BuildRunBody(options)
      case Failure(e) => Reply(Failure(e), [])
      case Success(body) =>
        var post := Request("POST", Versioned(c, RunsPath(pipelineId)), Some(body));
        match o.fetch(post)
        case Failure(e) => Reply(Failure(e), [post])
        case Success(run) =>
          var tagged := TagStep(o, c, pipelineId, Get(options, "tags"), run);
          Reply(tagged.result, [post] + tagged.calls)
  }

  /** A created run comes back unchanged from `runPipeline`: tagging never
      replaces it, and a failing tag call does not fail the operation. Only a
      tag call that never settles holds it back. */
  lemma CreatedRunSurvivesTagging(o: Oracle, c: AdoClient, pipelineId: string, options: Json)
    requires options != JNull && BuildRunBody(options).Success?
    requires var post := Request("POST", Versioned(c, RunsPath(pipelineId)), Some(BuildRunBody(options).value));
      o.fetch(post).Success? && o.fetch(post).value != JNull
    requires NoHang(o, RunPipeline(o, c, pipelineId, options).calls)
    ensures var post := Request("POST", Versioned(c, RunsPath(pipelineId)), Some(BuildRunBody(options).value));
      RunPipeline(o, c, pipelineId, options).result == Success(o.fetch(post).value)
  {
    var post := Request("POST", Versioned(c, RunsPath(pipelineId)), Some(BuildRunBody(options).value));
    var r := RunPipeline(o, c, pipelineId, options);
    var tagged := TagStep(o, c, pipelineId, Get(options, "tags"), o.fetch(post).value);
    assert r.calls[1..] == tagged.calls;
    forall i | 0 <= i < |tagged.calls|
      ensures o.fetch(tagged.calls[i]) != Failure(Hang)
    {
      assert tagged.calls[i] == r.calls[i + 1];
    }
    assert NoHang(o, tagged.calls);
  }

  datatype Branch = Branch(name: string, ref: string)

  const HeadsPrefix := "refs/heads/"

  /** The mapping `ref => ({ name: ref.name.replace('refs/heads/', ''), ref: ref.name })`,
      which throws at the first entry whose `name` is not a string. */
  function MapBranches(refs: seq<Json>): (r: Result<seq<Branch>, Failure>)
    ensures r.Success? <==> forall i :: 0 <= i < |refs| ==> refs[i] != JNull && Get(refs[i], "name").Some? && Get(refs[i], "name").value.JStr?
    ensures r.Success? ==> |r.value| == |refs| && forall i :: 0 <= i < |refs| ==>
      && r.value[i].ref == Get(refs[i], "name").value.s
      && r.value[i].name == RemoveFirst(r.value[i].ref, HeadsPrefix)
    ensures |refs| > 0 && refs[0] != JNull && Get(refs[0], "name") == Some(JNull) ==> r == Failure(NullRead("replace"))
  {
    if |refs| == 0 then Success([])
    else
      var first :=
        if refs[0] == JNull then Failure(NullRead("name"))
        else match Get(refs[0], "name")
          case None => Failure(Thrown("Cannot read properties of undefined (reading 'replace')"))
          case Some(JStr(s)) => Success(Branch(RemoveFirst(s, HeadsPrefix), s))
          case Some(JNull) => Failure(NullRead("replace"))
          case Some(_) => Failure(NotAFunction("ref.name.replace"));
      match first
      case Failure(e) => Failure(e)
      case Success(b) =>
        match MapBranches(refs[1..])
        case Failure(e) => Failure(e)
        case Success(bs) => Success([b] + bs)
  }

  /** `data.value || []` of a heads page. */
  function RefsOf(data: Json): Json {
    Or(Get(data, "value"), Some(JArr([]))).value
  }

  /** `listBranches(repositoryId)`: the heads of one repository, count and
      order preserved. */
  function ListBranches(o: Oracle, c: AdoClient, repositoryId: string): (r: Reply<seq<Branch>>)
    ensures r.calls == [GetRequest(c.baseUrl + "/git/repositories/" + repositoryId + "/refs?filter=heads/&api-version=" + c.apiVersion)]
    ensures o.fetch(r.calls[0]).Failure? ==> r.result == Failure(o.fetch(r.calls[0]).error)
    ensures o.fetch(r.calls[0]) == Success(JNull) ==> r.result == Failure(NullRead("value"))
    ensures r.result.Success? <==>
      && o.fetch(r.calls[0]).Success? && o.fetch(r.calls[0]).value != JNull
      && RefsOf(o.fetch(r.calls[0]).value).JArr?
      && MapBranches(RefsOf(o.fetch(r.calls[0]).value).elems).Success?
    ensures r.result.Success? ==>
      var data := o.fetch(r.calls[0]).value;
      var refs := if IsTruthy(Get(data, "value")) then Get(data, "value").value else JArr([]);
      && refs.JArr?
      && |r.result.value| == |refs.elems|
      && forall i :: 0 <= i < |refs.elems| ==>
           && Get(refs.elems[i], "name").Some? && Get(refs.elems[i], "name").value.JStr?
           && r.result.value[i].ref == Get(refs.elems[i], "name").value.s
           && r.result.value[i].name == RemoveFirst(r.result.value[i].ref, HeadsPrefix)
  {
    var req := GetRequest(c.baseUrl + "/git/repositories/" + repositoryId + "/refs?filter=heads/&api-version=" + c.apiVersion);
    match o.fetch(req)
    case Failure(e) => Reply(Failure(e), [req])
    case Success(data) =>
      if data == JNull then Reply(Failure(NullRead("value")), [req])
      else
        var refs := RefsOf(data);
        if !refs.JArr? then Reply(Failure(NotAFunction("(data.value || []).map")), [req])
        else Reply(MapBranches(refs.elems), [req])
  }

  /** A fully qualified head loses exactly its `refs/heads/` prefix:
      `refs/heads/feature/x` is shown as `feature/x`. */
  lemma BranchNameOfHead(ref: string)
    requires HeadsPrefix <= ref
    ensures Branch(RemoveFirst(ref, HeadsPrefix), ref).name == ref[|HeadsPrefix|..]
    ensures RemoveFirst("refs/heads/feature/x", HeadsPrefix) == "feature/x"
  {
    RemoveFirstOfPrefix(ref, HeadsPrefix);
    RemoveFirstOfPrefix("refs/heads/feature/x", HeadsPrefix);
  }
}

=== FILE: enrichment.dfy ===
/** `getPipelinesWithLatestRunAndArtifacts`: each pipeline of a listing is
    enriched with its latest run, that run's artifacts and the subject line
    of its commit, with failures contained per artifact lookup, per commit
    lookup and per pipeline. */
module Enrichment {
  import opened Wrappers
  import opened JsText
  import opened JsValue
  import opened Transport
  import opened Client

  /** `runs[0] || null`. */
  function LatestOf(runs: seq<Json>): (latest: Json)
    ensures latest == JNull || Truthy(latest)
    ensures latest != JNull ==> |runs| > 0 && latest == runs[0]
    ensures |runs| == 0 ==> latest == JNull
    ensures |runs| > 0 && Truthy(runs[0]) ==> latest == runs[0]
  {
    if |runs| > 0 && Truthy(runs[0]) then runs[0] else JNull
  }

  /** `latest?.resources?.build?.id || latest?.build?.id`. */
  function BuildIdOf(latest: Json): Option<Json> {
    Or(OptGet(OptGet(OptGet(Some(latest), "resources"), "build"), "id"),
       OptGet(OptGet(Some(latest), "build"), "id"))
  }

  function ArtifactsUrl(c: AdoClient, buildId: Option<Json>): Request {
    GetRequest(Versioned(c, "/build/builds/" + Interp(buildId) + "/artifacts"))
  }

  /** The artifact lookup of one pipeline: attempted only when the run names
      a build; any catchable failure leaves `[]`. */
  function ArtifactsStep(o: Oracle, c: AdoClient, latest: Json): (r: Reply<Json>)
    ensures r.result.Failure? ==> r.result.error == Hang
    ensures !IsTruthy(BuildIdOf(latest)) ==> r == Reply(Success(JArr([])), [])
    ensures latest == JNull ==> r == Reply(Success(JArr([])), [])
    ensures IsTruthy(BuildIdOf(latest)) ==> r.calls == [ArtifactsUrl(c, BuildIdOf(latest))]
    ensures (IsTruthy(BuildIdOf(latest)) && o.fetch(ArtifactsUrl(c, BuildIdOf(latest))).Failure? &&
             o.fetch(ArtifactsUrl(c, BuildIdOf(latest))).error.Catchable()) ==> r.result == Success(JArr([]))
    ensures (IsTruthy(BuildIdOf(latest)) && ListBuildArtifacts(o, c, Interp(BuildIdOf(latest))).result.Failure? &&
             ListBuildArtifacts(o, c, Interp(BuildIdOf(latest))).result.error.Catchable()) ==> r.result == Success(JArr([]))
    ensures IsTruthy(BuildIdOf(latest)) && ListBuildArtifacts(o, c, Interp(BuildIdOf(latest))).result.Success? ==>
      r.result == ListBuildArtifacts(o, c, Interp(BuildIdOf(latest))).result
    ensures IsTruthy(BuildIdOf(latest)) && o.fetch(ArtifactsUrl(c, BuildIdOf(latest))) == Failure(Hang) ==>
      r.result == Failure(Hang)
    ensures NoHang(o, r.calls) ==> r.result.Success?
  {
    var buildId := BuildIdOf(latest);
    if IsTruthy(buildId) then
      var listed := ListBuildArtifacts(o, c, Interp(buildId));
      match listed.result
      case Success(v) => listed
      case Failure(e) => if e.Hang? then listed else Reply(Success(JArr([])), listed.calls)
    else Reply(Success(JArr([])), [])
  }

  /** `latest.resources?.repositories?.self`. */
  function RepoResourceOf(latest: Json): Option<Json> {
    OptGet(OptGet(Get(latest, "resources"), "repositories"), "self")
  }

  /** The run names its repository and commit version. */
  predicate NamesCommit(latest: Json) {
    var repo := RepoResourceOf(latest);
    IsTruthy(repo) && IsTruthy(OptGet(Get(repo.value, "repository"), "id")) && IsTruthy(Get(repo.value, "version"))
  }

  function CommitRequest(c: AdoClient, latest: Json): Request
    requires NamesCommit(latest)
  {
    var repo := RepoResourceOf(latest).value;
    GetRequest(Versioned(c, "/git/repositories/" + Interp(OptGet(Get(repo, "repository"), "id"))
                            + "/commits/" + Interp(Get(repo, "version"))))
  }

  /** `commit?.comment || ''`. */
  function CommentOf(commit: Json): Json {
    Or(OptGet(Some(commit), "comment"), Some(JStr(""))).value
  }

  /** The commit lookup of one pipeline: the first line of the commit's
      comment, or null when the run names no commit, the lookup fails, or
      the comment is not a string. */
  function SubjectStep(o: Oracle, c: AdoClient, latest: Json): (r: Reply<Json>)
    ensures r.result.Failure? ==> r.result.error == Hang
    ensures !Truthy(latest) || !NamesCommit(latest) ==> r == Reply(Success(JNull), [])
    ensures Truthy(latest) && NamesCommit(latest) ==> r.calls == [CommitRequest(c, latest)]
    ensures r.result.Success? ==> r.result.value == JNull || r.result.value.JStr?
    ensures (Truthy(latest) && NamesCommit(latest) && o.fetch(CommitRequest(c, latest)).Failure? &&
             o.fetch(CommitRequest(c, latest)).error.Catchable()) ==> r.result == Success(JNull)
    ensures Truthy(latest) && NamesCommit(latest) && o.fetch(CommitRequest(c, latest)).Success? ==>
      var comment := CommentOf(o.fetch(CommitRequest(c, latest)).value);
      r.result == if comment.JStr? then Success(JStr(FirstLine(comment.s))) else Success(JNull)
    ensures Truthy(latest) && NamesCommit(latest) && o.fetch(CommitRequest(c, latest)) == Failure(Hang) ==>
      r.result == Failure(Hang)
    ensures NoHang(o, r.calls) ==> r.result.Success?
    ensures r.result.Success? && r.result.value.JStr? ==>
      && Truthy(latest) && NamesCommit(latest)
      && o.fetch(CommitRequest(c, latest)).Success?
      && var comment := CommentOf(o.fetch(CommitRequest(c, latest)).value);
      && comment.JStr?
      && '\n' !in r.result.value.s
      && r.result.value.s <= comment.s
      && (r.result.value.s == comment.s || comment.s[|r.result.value.s|] == '\n')
  {
    if !Truthy(latest) || !NamesCommit(latest) then Reply(Success(JNull), [])
    else
      var fetched := GetCommit(o, c, Interp(OptGet(Get(RepoResourceOf(latest).value, "repository"), "id")),
                                     Interp(Get(RepoResourceOf(latest).value, "version")));
      match fetched.result
      case Failure(e) => if e.Hang? then fetched else Reply(Success(JNull), fetched.calls)
      case Success(commit) =>
        match CommentOf(commit)
        case JStr(s) => Reply(Success(JStr(FirstLine(s))), fetched.calls)
        case _ => Reply(Success(JNull), fetched.calls)
  }

  /** The enriched record `{ id, name, url, latestRun, artifacts, commitSubject }`,
      without the properties that are `undefined`. */
  function Record(p: Json, latest: Json, artifacts: Json, subject: Json): (r: Json)
    ensures r.JObj?
    ensures r.fields.Keys <= {"id", "name", "url", "latestRun", "artifacts", "commitSubject"}
    ensures Get(r, "latestRun") == Some(latest) && Get(r, "artifacts") == Some(artifacts)
    ensures Get(r, "commitSubject") == Some(subject)
    ensures Get(r, "id") == Get(p, "id") && Get(r, "name") == Get(p, "name")
    ensures Get(r, "url") == OptGet(OptGet(Get(p, "_links"), "web"), "href")
  {
    var fixed := map["latestRun" := latest, "artifacts" := artifacts, "commitSubject" := subject];
    var withId := Put(fixed, "id", Get(p, "id"));
    var withName := Put(withId, "name", Get(p, "name"));
    var full := Put(withName, "url", OptGet(OptGet(Get(p, "_links"), "web"), "href"));
    assert fixed.Keys == {"latestRun", "artifacts", "commitSubject"};
    assert withName.Keys <= {"id", "name", "latestRun", "artifacts", "commitSubject"};
    JObj(full)
  }

  function LatestRunsOf(o: Oracle, c: AdoClient, p: Json): Reply<Listing> {
    ListPipelineRuns(o, c, Interp(Get(p, "id")), Some(Int(1)), None)
  }

  /** The per-pipeline task. A pipeline whose run listing fails comes back
      exactly as listed. A null entry escapes containment: reading `p.id`
      throws again inside the `catch`. */
  function EnrichItem(o: Oracle, c: AdoClient, p: Json): (r: Reply<Json>)
    ensures p == JNull ==> r == Reply(Failure(NullRead("id")), [])
    ensures r.result.Failure? ==> p == JNull || r.result.error == Hang
    ensures p != JNull && LatestRunsOf(o, c, p).result.Failure? && LatestRunsOf(o, c, p).result.error.Catchable() ==>
      r == Reply(Success(p), LatestRunsOf(o, c, p).calls)
    ensures p != JNull && LatestRunsOf(o, c, p).result.Success? && r.result.Success? ==>
      var latest := LatestOf(LatestRunsOf(o, c, p).result.value.items);
      && ArtifactsStep(o, c, latest).result.Success?
      && SubjectStep(o, c, latest).result.Success?
      && r.result.value == Record(p, latest, ArtifactsStep(o, c, latest).result.value, SubjectStep(o, c, latest).result.value)
    ensures p != JNull && LatestRunsOf(o, c, p).result.Success? ==>
      var latest := LatestOf(LatestRunsOf(o, c, p).result.value.items);
      ArtifactsStep(o, c, latest).result.Success? && SubjectStep(o, c, latest).result.Success? ==>
        r.result == Success(Record(p, latest, ArtifactsStep(o, c, latest).result.value, SubjectStep(o, c, latest).result.value))
    ensures p != JNull ==> LatestRunsOf(o, c, p).calls <= r.calls
  {
    if p == JNull then Reply(Failure(NullRead("id")), [])
    else
      var runs := LatestRunsOf(o, c, p);
      match runs.result
      case Failure(e) => if e.Hang? then Reply(Failure(Hang), runs.calls) else Reply(Success(p), runs.calls)
      case Success(listing) =>
        var latest := LatestOf(listing.items);
        var arts := ArtifactsStep(o, c, latest);
        var subject := SubjectStep(o, c, latest);
        if arts.result.Failure? then Reply(Failure(Hang), runs.calls + arts.calls)
        else if subject.result.Failure? then Reply(Failure(Hang), runs.calls + arts.calls + subject.calls)
        else Reply(Success(Record(p, latest, arts.result.value, subject.result.value)), runs.calls + arts.calls + subject.calls)
  }

  /** A pipeline without runs is reported with `latestRun: null`,
      `artifacts: []` and `commitSubject: null`, after one listing only. */
  lemma NoRunMeansEmptyEnrichment(o: Oracle, c: AdoClient, p: Json)
    requires p != JNull
    requires LatestRunsOf(o, c, p).result.Success?
    requires LatestOf(LatestRunsOf(o, c, p).result.value.items) == JNull
    ensures EnrichItem(o, c, p).result == Success(Record(p, JNull, JArr([]), JNull))
    ensures EnrichItem(o, c, p).calls == LatestRunsOf(o, c, p).calls
  {
    var calls := LatestRunsOf(o, c, p).calls;
    assert calls + [] + [] == calls;
  }

  function ConcatCalls(replies: seq<Reply<Json>>): seq<Request> {
    if |replies| == 0 then [] else replies[0].calls + ConcatCalls(replies[1..])
  }

  /** The aggregate: list the pipelines once, enrich every listed pipeline,
      keep `total` and the listing's order. */
  function ListEnriched(o: Oracle, c: AdoClient, top: Option<Num>, skip: Option<Num>): (r: Reply<Listing>)
    ensures ListPipelines(o, c, top, skip).calls <= r.calls
    ensures ListPipelines(o, c, top, skip).result.Failure? ==> r == ListPipelines(o, c, top, skip)
    ensures r.result.Success? <==>
      && ListPipelines(o, c, top, skip).result.Success?
      && forall i :: 0 <= i < |ListPipelines(o, c, top, skip).result.value.items| ==>
           EnrichItem(o, c, ListPipelines(o, c, top, skip).result.value.items[i]).result.Success?
    ensures r.result.Success? ==>
      var base := ListPipelines(o, c, top, skip).result.value;
      && r.result.value.total == base.total
      && |r.result.value.items| == |base.items|
      && forall i :: 0 <= i < |base.items| ==> r.result.value.items[i] == EnrichItem(o, c, base.items[i]).result.value
  {
    var base := ListPipelines(o, c, top, skip);
    match base.result
    case Failure(e) => base
    case Success(listing) =>
      var replies := seq(|listing.items|, i requires 0 <= i < |listing.items| => EnrichItem(o, c, listing.items[i]));
      var outcomes := seq(|replies|, i requires 0 <= i < |replies| => replies[i].result);
      assert forall i :: 0 <= i < |listing.items| ==> outcomes[i] == EnrichItem(o, c, listing.items[i]).result;
      var calls := base.calls + ConcatCalls(replies);
      match JoinAll(outcomes)
      case Success(enriched) => Reply(Success(Listing(listing.total, enriched)), calls)
      case Failure(e) => Reply(Failure(e), calls)
  }

  /** A pipeline's task settles whenever upstream answers every call it
      makes and its run listing ends within the page budget: every failure
      upstream reports is contained. */
  lemma {:induction false} EnrichItemSettles(o: Oracle, c: AdoClient, p: Json)
    requires p != JNull
    requires LatestRunsOf(o, c, p).result != Failure(Hang)
    requires NoHang(o, EnrichItem(o, c, p).calls)
    ensures EnrichItem(o, c, p).result.Success?
  {
    var r := EnrichItem(o, c, p);
    var runs := LatestRunsOf(o, c, p);
    if runs.result.Success? {
      var latest := LatestOf(runs.result.value.items);
      var arts := ArtifactsStep(o, c, latest);
      var subject := SubjectStep(o, c, latest);
      assert r.calls[..|runs.calls|] == runs.calls;
      if arts.result.Failure? {
        assert r.calls == runs.calls + arts.calls;
        NoHangSuffix(o, runs.calls, arts.calls);
      } else if subject.result.Failure? {
        assert r.calls == (runs.calls + arts.calls) + subject.calls;
        NoHangSuffix(o, runs.calls + arts.calls, subject.calls);
      }
    }
  }

  lemma NoHangSuffix(o: Oracle, front: seq<Request>, back: seq<Request>)
    requires NoHang(o, front + back)
    ensures NoHang(o, back)
  {
    forall i | 0 <= i < |back|
      ensures o.fetch(back[i]) != Failure(Hang)
    {
      assert back[i] == (front + back)[|front| + i];
    }
  }

  /** One pipeline's failure never fails the batch: as long as no listed
      entry is null, every run listing ends within the page budget and
      upstream answers every call, the aggregate succeeds, a pipeline whose
      run listing failed appears as listed, and every other pipeline is
      enriched. */
  lemma FaultContainment(o: Oracle, c: AdoClient, top: Option<Num>, skip: Option<Num>)
    requires ListPipelines(o, c, top, skip).result.Success?
    requires var items := ListPipelines(o, c, top, skip).result.value.items;
      forall i :: 0 <= i < |items| ==>
        && items[i] != JNull
        && LatestRunsOf(o, c, items[i]).result != Failure(Hang)
        && NoHang(o, EnrichItem(o, c, items[i]).calls)
    ensures ListEnriched(o, c, top, skip).result.Success?
    ensures var base := ListPipelines(o, c, top, skip).result.value;
      && ListEnriched(o, c, top, skip).result.value.total == base.total
      && forall i :: 0 <= i < |base.items| && LatestRunsOf(o, c, base.items[i]).result.Failure? ==>
           ListEnriched(o, c, top, skip).result.value.items[i] == base.items[i]
  {
    var base := ListPipelines(o, c, top, skip).result.value;
    var all := ListEnriched(o, c, top, skip);
    forall i | 0 <= i < |base.items|
      ensures EnrichItem(o, c, base.items[i]).result.Success?
    {
      EnrichItemSettles(o, c, base.items[i]);
    }
    assert all.result.Success?;
  }
}

=== FILE: js_text.dfy ===
/** The JavaScript string and number primitives the connector relies on:
    decimal printing of numbers in template literals, `parseInt` without a
    radix, the `\s` whitespace class, `split('\n')[0]` and `String.replace`
    with a string pattern. */
module JsText {

  /** A JavaScript number as produced by `parseInt`: an integer or NaN. */
  datatype Num = NaN | Int(i: int)

  predicate IsDecimalDigit(c: char) { '0' <= c <= '9' }

  /** Membership of `c` in the digit alphabet of `radix` (10 or 16). */
  predicate IsRadixDigit(c: char, radix: nat) {
    if radix == 16 then IsDecimalDigit(c) || 'a' <= c <= 'f' || 'A' <= c <= 'F'
    else IsDecimalDigit(c)
  }

  function DigitValue(c: char): nat {
    if IsDecimalDigit(c) then (c - '0') as nat
    else if 'a' <= c <= 'f' then (c - 'a') as nat + 10
    else if 'A' <= c <= 'F' then (c - 'A') as nat + 10
    else 0
  }

  function DigitChar(d: nat): char
    requires d < 10
  {
    ('0' as int + d) as char
  }

  predicate AllDecimalDigits(s: string) {
    forall i :: 0 <= i < |s| ==> IsDecimalDigit(s[i])
  }

  /** The number a digit string denotes, most significant digit first. */
  function DigitsValue(ds: string, radix: nat): nat {
    if |ds| == 0 then 0
    else DigitsValue(ds[..|ds| - 1], radix) * radix + DigitValue(ds[|ds| - 1])
  }

  /** `${n}` for a non-negative integer: shortest decimal form. */
  function NatToString(n: nat): (s: string)
    ensures |s| >= 1 && AllDecimalDigits(s)
    ensures s[0] == '0' ==> n == 0
    ensures n < 10 <==> |s| == 1
  {
    if n < 10 then [DigitChar(n)]
    else NatToString(n / 10) + [DigitChar(n % 10)]
  }

  /** `${i}` for any integer. */
  function IntToString(i: int): string {
    if i < 0 then "-" + NatToString(-i) else NatToString(i)
  }

  /** `${x}` for a number that may be NaN. */
  function NumToString(x: Num): string {
    match x
    case NaN => "NaN"
    case Int(i) => IntToString(i)
  }

  /** The `\s` class of JavaScript regular expressions, which is also the set
      of characters `parseInt` skips before the number (WhiteSpace and
      LineTerminator of ECMA-262). */
  predicate IsJsSpace(c: char) {
    || c == '\t' || c == '\n' || c == '\U{B}' || c == '\U{C}' || c == '\r' || c == ' '
    || c == '\U{A0}' || c == '\U{1680}' || '\U{2000}' <= c <= '\U{200A}'
    || c == '\U{2028}' || c == '\U{2029}' || c == '\U{202F}' || c == '\U{205F}'
    || c == '\U{3000}' || c == '\U{FEFF}'
  }

  /** `s` without its leading `\s` characters. */
  function TrimStart(s: string): (r: string)
    ensures |r| <= |s| && r == s[|s| - |r|..]
    ensures forall i :: 0 <= i < |s| - |r| ==> IsJsSpace(s[i])
    ensures |r| == 0 || !IsJsSpace(r[0])
  {
    if |s| > 0 && IsJsSpace(s[0]) then TrimStart(s[1..]) else s
  }

  /** The longest prefix of `s` made of digits of `radix`. */
  function DigitPrefix(s: string, radix: nat): (ds: string)
    ensures ds <= s
    ensures forall i :: 0 <= i < |ds| ==> IsRadixDigit(ds[i], radix)
    ensures |ds| == |s| || !IsRadixDigit(s[|ds|], radix)
  {
    if |s| > 0 && IsRadixDigit(s[0], radix) then [s[0]] + DigitPrefix(s[1..], radix) else []
  }

  /** `parseInt(s)` with no radix argument: leading whitespace is skipped, one
      sign is accepted, a `0x`/`0X` prefix switches to base 16, and the longest
      run of digits that follows is the value; no digits at all gives NaN. */
  function ParseInt(s: string): (r: Num)
    ensures |TrimStart(s)| == 0 ==> r.NaN?
    ensures r.Int? ==>
      |TrimStart(s)| > 0 && (IsDecimalDigit(TrimStart(s)[0]) || TrimStart(s)[0] == '-' || TrimStart(s)[0] == '+')
    ensures r.Int? && r.i < 0 ==> TrimStart(s)[0] == '-'
    ensures |TrimStart(s)| > 0 && IsDecimalDigit(TrimStart(s)[0]) && !HexPrefixed(TrimStart(s)) ==>
      r == Int(DigitsValue(DigitPrefix(TrimStart(s), 10), 10))
  {
    var t := TrimStart(s);
    if |t| > 0 && t[0] == '-' then
      (match Magnitude(t[1..]) case None => NaN case Some(m) => Int(-(m as int)))
    else if |t| > 0 && t[0] == '+' then
      (match Magnitude(t[1..]) case None => NaN case Some(m) => Int(m))
    else
      (match Magnitude(t) case None => NaN case Some(m) => Int(m))
  }

  /** `0x` or `0X` at the front of `u`. */
  predicate HexPrefixed(u: string) {
    |u| >= 2 && u[0] == '0' && (u[1] == 'x' || u[1] == 'X')
  }

  /** The unsigned part of `parseInt`: base 16 after `0x`/`0X`, base 10
      otherwise; `None` when no digit follows. */
  function Magnitude(u: string): (m: Option<nat>)
    ensures m.Some? ==> |u| > 0 && IsDecimalDigit(u[0])
    ensures |u| > 0 && IsDecimalDigit(u[0]) && !HexPrefixed(u) ==> m.Some?
  {
    if HexPrefixed(u) then
      var ds := DigitPrefix(u[2..], 16);
      if |ds| == 0 then None else Some(DigitsValue(ds, 16))
    else
      var ds := DigitPrefix(u, 10);
      if |ds| == 0 then None else Some(DigitsValue(ds, 10))
  }

  /** Reading back a printed number gives the number. */
  lemma {:induction false} NatToStringValue(n: nat)
    ensures DigitsValue(NatToString(n), 10) == n
  {
    if n >= 10 {
      var s := NatToString(n / 10);
      assert NatToString(n) == s + [DigitChar(n % 10)];
      assert (s + [DigitChar(n % 10)])[..|s|] == s;
      NatToStringValue(n / 10);
    }
  }

  lemma {:induction false} DigitPrefixOfDigits(ds: string, rest: string)
    requires AllDecimalDigits(ds)
    requires |rest| == 0 || !IsDecimalDigit(rest[0])
    ensures DigitPrefix(ds + rest, 10) == ds
  {
    if |ds| > 0 {
      assert (ds + rest)[1..] == ds[1..] + rest;
      DigitPrefixOfDigits(ds[1..], rest);
      assert ds == [ds[0]] + ds[1..];
    } else {
      assert ds + rest == rest;
    }
  }

  /** A string that does not start with whitespace is not trimmed. */
  lemma TrimStartKeeps(s: string)
    requires |s| > 0 && !IsJsSpace(s[0])
    ensures TrimStart(s) == s
  {
  }

  /** `parseInt` reads the leading decimal number of a string and ignores
      what follows it ("7abc" is 7), as long as the next character is not a
      digit and the number is not a `0` that starts a `0x` prefix. */
  lemma ParseIntLeadingNumber(n: nat, rest: string)
    requires |rest| == 0 || !IsDecimalDigit(rest[0])
    requires n == 0 && |rest| > 0 ==> rest[0] != 'x' && rest[0] != 'X'
    ensures ParseInt(NatToString(n) + rest) == Int(n)
  {
    var d := NatToString(n);
    var s := d + rest;
    assert s[0] == d[0] && IsDecimalDigit(s[0]);
    assert !IsJsSpace(s[0]);
    assert TrimStart(s) == s;
    assert !(s[0] == '-' || s[0] == '+');
    if |s| >= 2 && s[0] == '0' {
      assert n == 0 && |d| == 1;
      assert s[1] == rest[0];
    }
    DigitPrefixOfDigits(d, rest);
    NatToStringValue(n);
  }

  /** A string whose first character is not whitespace, a sign or a digit
      is not a number. */
  lemma ParseIntNoDigits(s: string)
    requires |s| > 0 && !IsJsSpace(s[0]) && !IsDecimalDigit(s[0]) && s[0] != '-' && s[0] != '+'
    ensures ParseInt(s) == NaN
  {
    assert TrimStart(s) == s;
  }

  /** The unsigned part of `parseInt` reads a printed number back. */
  lemma MagnitudeOfPrinted(n: nat)
    ensures Magnitude(NatToString(n)) == Some(n)
  {
    var d := NatToString(n);
    if |d| >= 2 {
      assert d[0] != '0';
    }
    assert d + [] == d;
    DigitPrefixOfDigits(d, []);
    NatToStringValue(n);
  }

  /** Printing then parsing an integer is the identity. */
  lemma ParseIntRoundTrip(i: int)
    ensures ParseInt(IntToString(i)) == Int(i)
  {
    if i < 0 {
      var s := NatToString(-i);
      assert IntToString(i) == "-" + s;
      TrimStartKeeps("-" + s);
      assert ("-" + s)[1..] == s;
      MagnitudeOfPrinted(-i);
    } else {
      var s := NatToString(i);
      assert IsDecimalDigit(s[0]);
      TrimStartKeeps(s);
      MagnitudeOfPrinted(i);
    }
  }

  /** `s.split('\n')[0]`: the text before the first line feed. */
  function FirstLine(s: string): (r: string)
    ensures r <= s
    ensures '\n' !in r
    ensures r == s || s[|r|] == '\n'
  {
    if |s| == 0 || s[0] == '\n' then "" else [s[0]] + FirstLine(s[1..])
  }

  predicate OccursAt(s: string, pat: string, j: int) {
    0 <= j && j + |pat| <= |s| && s[j..j + |pat|] == pat
  }

  /** Position of the first occurrence of `pat` in `s` at or after `from`. */
  function IndexOfFrom(s: string, pat: string, from: nat): (r: Option<nat>)
    requires from <= |s|
    ensures r.Some? ==> from <= r.value && OccursAt(s, pat, r.value)
    ensures r.Some? ==> forall j :: from <= j < r.value ==> !OccursAt(s, pat, j)
    ensures r.None? ==> forall j :: from <= j ==> !OccursAt(s, pat, j)
    decreases |s| - from
  {
    if OccursAt(s, pat, from) then Some(from)
    else if from + |pat| >= |s| then None
    else IndexOfFrom(s, pat, from + 1)
  }

  /** `s.replace(pat, '')` with a string pattern: only the first occurrence
      is removed. */
  function RemoveFirst(s: string, pat: string): (r: string)
  {
    match IndexOfFrom(s, pat, 0)
    case None => s
    case Some(i) => s[..i] + s[i + |pat|..]
  }

  /** Removing a leading occurrence leaves the rest of the string. */
  lemma RemoveFirstOfPrefix(s: string, pat: string)
    requires pat <= s
    ensures RemoveFirst(s, pat) == s[|pat|..]
  {
    assert OccursAt(s, pat, 0);
  }

  /** Only the first occurrence goes: later ones survive, and text before the
      first occurrence is kept. */
  lemma RemoveFirstShape(s: string, pat: string)
    ensures forall i :: OccursAt(s, pat, i) && (forall j :: 0 <= j < i ==> !OccursAt(s, pat, j)) ==>
      RemoveFirst(s, pat) == s[..i] + s[i + |pat|..]
    ensures RemoveFirst(s, pat) == s <==> (forall j :: 0 <= j ==> !OccursAt(s, pat, j)) || |pat| == 0
    ensures |pat| > 0 && (exists j :: OccursAt(s, pat, j)) ==> |RemoveFirst(s, pat)| == |s| - |pat|
  {
    match IndexOfFrom(s, pat, 0)
    case None =>
    case Some(i) =>
      var r := s[..i] + s[i + |pat|..];
      if |pat| > 0 {
        assert |r| == |s| - |pat|;
        assert r != s;
      } else {
        assert s[..i] + s[i..] == s;
      }
  }

  import opened Wrappers
}

=== FILE: js_value.dfy ===
/** JSON values as the connector sees them after `res.json()` or
    `req.json()`, together with the JavaScript operations the connector applies
    to them: truthiness, property reads, optional chaining, `||` and
    template-literal interpolation. */
module JsValue {
  import opened Wrappers
  import opened JsText

  /** A parsed JSON document. Numbers are integers (fractions and exponents
      are not modelled); object keys are unordered. */
  datatype Json =
    | JNull
    | JBool(b: bool)
    | JNum(n: int)
    | JStr(s: string)
    | JArr(elems: seq<Json>)
    | JObj(fields: map<string, Json>)

  /** JavaScript truthiness. JSON cannot carry NaN, so a number is falsy
      exactly when it is zero. */
  predicate Truthy(j: Json) {
    match j
    case JNull => false
    case JBool(b) => b
    case JNum(n) => n != 0
    case JStr(s) => s != ""
    case JArr(_) => true
    case JObj(_) => true
  }

  /** Truthiness of a value that may be `undefined` (`None`). */
  predicate IsTruthy(v: Option<Json>) {
    v.Some? && Truthy(v.value)
  }

  /** `j.key` on a value that is not null. Primitives and arrays carry none
      of the property names the connector reads, so those read `undefined`. */
  function Get(j: Json, key: string): (r: Option<Json>)
    ensures r.Some? <==> j.JObj? && key in j.fields
    ensures r.Some? ==> r.value == j.fields[key]
  {
    match j
    case JObj(m) => if key in m then Some(m[key]) else None
    case _ => None
  }

  /** `v?.key`: stops at `null` or `undefined`. */
  function OptGet(v: Option<Json>, key: string): Option<Json> {
    match v
    case None => None
    case Some(JNull) => None
    case Some(j) => Get(j, key)
  }

  /** `a || b`. */
  function Or(a: Option<Json>, b: Option<Json>): (r: Option<Json>)
    ensures IsTruthy(r) <==> IsTruthy(a) || IsTruthy(b)
    ensures IsTruthy(a) ==> r == a
    ensures !IsTruthy(a) ==> r == b
  {
    if IsTruthy(a) then a else b
  }

  /** `String(j)`: arrays print as their comma-joined elements with null
      printed as the empty string; every object prints as "[object Object]". */
  function ToJsString(j: Json): string {
    match j
    case JNull => "null"
    case JBool(b) => if b then "true" else "false"
    case JNum(n) => IntToString(n)
    case JStr(s) => s
    case JArr(es) => Join(seq(|es|, i requires 0 <= i < |es| => if es[i] == JNull then "" else ToJsString(es[i])))
    case JObj(_) => "[object Object]"
  }

  function Join(parts: seq<string>): string {
    if |parts| == 0 then ""
    else if |parts| == 1 then parts[0]
    else parts[0] + "," + Join(parts[1..])
  }

  /** `${v}` in a template literal, where `v` may be `undefined`. */
  function Interp(v: Option<Json>): string {
    match v
    case None => "undefined"
    case Some(j) => ToJsString(j)
  }

  /** Adds property `key` to an object under construction, or leaves it out
      when its value is `undefined` (which `JSON.stringify` drops). */
  function Put(m: map<string, Json>, key: string, v: Option<Json>): (r: map<string, Json>)
    ensures key in r <==> v.Some? || key in m
    ensures r.Keys <= m.Keys + {key}
    ensures v.Some? ==> r[key] == v.value
    ensures forall k :: k != key ==> (k in r <==> k in m) && (k in r ==> r[k] == m[k])
  {
    if v.Some? then m[key := v.value] else m
  }

  /** `Object.entries(v)` as a map from key to value: an object's own
      properties, an array's or a string's indices. */
  function Entries(v: Json): map<string, Json> {
    match v
    case JObj(m) => m
    case JArr(es) => IndexMap(es)
    case JStr(s) => IndexMap(seq(|s|, i requires 0 <= i < |s| => JStr([s[i]])))
    case _ => map[]
  }

  lemma NatToStringInjective(a: nat, b: nat)
    requires a != b
    ensures NatToString(a) != NatToString(b)
  {
    NatToStringValue(a);
    NatToStringValue(b);
  }

  function IndexMap(es: seq<Json>): map<string, Json> {
    if |es| == 0 then map[]
    else IndexMap(es[..|es| - 1])[NatToString(|es| - 1) := es[|es| - 1]]
  }

  /** The index keys of an array are exactly "0", "1", ..., each bound to
      its element. */
  lemma {:induction false} IndexMapContents(es: seq<Json>)
    ensures forall i :: 0 <= i < |es| ==> NatToString(i) in IndexMap(es) && IndexMap(es)[NatToString(i)] == es[i]
    ensures forall k :: k in IndexMap(es) ==> exists i :: 0 <= i < |es| && k == NatToString(i)
  {
    if |es| > 0 {
      var last := |es| - 1;
      var prev := es[..last];
      IndexMapContents(prev);
      var m := IndexMap(es);
      assert m == IndexMap(prev)[NatToString(last) := es[last]];
      forall i | 0 <= i < |es|
        ensures NatToString(i) in m && m[NatToString(i)] == es[i]
      {
        if i < last {
          NatToStringInjective(i, last);
          assert prev[i] == es[i];
        }
      }
      forall k | k in m
        ensures exists i :: 0 <= i < |es| && k == NatToString(i)
      {
        if k != NatToString(last) {
          var i :| 0 <= i < last && k == NatToString(i);
          assert 0 <= i < |es| && k == NatToString(i);
        }
      }
    }
  }
}

=== FILE: paging.dfy ===
/** The continuation-token accumulator (`fetchAllPaged`) and the windowing
    policy applied after a full listing (`skip`/`top`). */
module Paging {
  import opened Wrappers
  import opened JsText
  import opened JsValue
  import opened Transport

  const TokenParam := "&continuationToken="

  /** What one page adds to the accumulator: `body.value || []` passed to
      `concat`, which spreads an array and appends any other value whole. */
  function PageItems(body: Json): (items: seq<Json>)
    ensures !IsTruthy(Get(body, "value")) ==> items == []
    ensures Get(body, "value").Some? && Get(body, "value").value.JArr? ==> items == Get(body, "value").value.elems
    ensures IsTruthy(Get(body, "value")) && !Get(body, "value").value.JArr? ==> items == [Get(body, "value").value]
  {
    var v := Get(body, "value");
    if IsTruthy(v) then (if v.value.JArr? then v.value.elems else [v.value]) else []
  }

  /** `body.continuationToken || null`, with `None` for null. */
  function PageToken(body: Json): (t: Option<Json>)
    ensures t.Some? <==> IsTruthy(Get(body, "continuationToken"))
    ensures t.Some? ==> t == Get(body, "continuationToken")
  {
    var t := Get(body, "continuationToken");
    if IsTruthy(t) then t else None
  }

  /** The next page's address: always the seed URL plus the encoded token. */
  function FollowUpUrl(o: Oracle, seed: string, token: Json): string {
    seed + TokenParam + o.encode(ToJsString(token))
  }

  predicate FollowsSeed(seed: string, url: string) {
    seed + TokenParam <= url
  }

  /** The loop of `fetchAllPaged` from the page at `next` on, following at
      most `fuel` pages. `fetchAllPaged` loops for as long as upstream sends
      tokens; running out of fuel is reported as a hang. */
  function PagesFrom(o: Oracle, seed: string, next: string, fuel: nat): (r: Reply<seq<Json>>)
    ensures |r.calls| <= fuel
    ensures next != "" && fuel > 0 ==> |r.calls| >= 1 && r.calls[0] == GetRequest(next)
    ensures forall i :: 0 <= i < |r.calls| ==> r.calls[i].verb == "GET"
    ensures forall i :: 1 <= i < |r.calls| ==> FollowsSeed(seed, r.calls[i].url)
    ensures next != "" && fuel > 0 && o.fetch(GetRequest(next)).Failure? ==>
      r.result == Failure(o.fetch(GetRequest(next)).error)
    ensures next != "" && fuel == 0 ==> r.result == Failure(Hang)
    decreases fuel
  {
    if next == "" then Reply(Success([]), [])
    else if fuel == 0 then Reply(Failure(Hang), [])
    else
      var req := GetRequest(next);
      match o.fetch(req)
      case Failure(e) => Reply(Failure(e), [req])
      case Success(body) =>
        if body == JNull then Reply(Failure(NullRead("value")), [req])
        else
          var items := PageItems(body);
          match PageToken(body)
          case None => Reply(Success(items), [req])
          case Some(token) =>
            var rest := PagesFrom(o, seed, FollowUpUrl(o, seed, token), fuel - 1);
            Prepend(items, [req], rest)
  }

  /** `next` is the call paging makes after `prev`: `prev` was answered with
      a page carrying a token, and `next` asks for the seed URL with that
      token appended. */
  predicate TokenStep(o: Oracle, seed: string, prev: Request, next: Request) {
    && o.fetch(prev).Success? && o.fetch(prev).value != JNull
    && PageToken(o.fetch(prev).value).Some?
    && next == GetRequest(FollowUpUrl(o, seed, PageToken(o.fetch(prev).value).value))
  }

  /** How paging proceeds: each call follows the token of the page the call
      before it received; the listing stops at the first failing or null
      page and reports it; a listing that succeeds ends on a page without a
      token. */
  lemma {:induction false} PagesFromSteps(o: Oracle, seed: string, next: string, fuel: nat)
    decreases fuel
    ensures var r := PagesFrom(o, seed, next, fuel);
      forall i :: 1 <= i < |r.calls| ==> TokenStep(o, seed, r.calls[i - 1], r.calls[i])
    ensures var r := PagesFrom(o, seed, next, fuel);
      |r.calls| > 0 && o.fetch(r.calls[|r.calls| - 1]).Failure? ==>
        r.result == Failure(o.fetch(r.calls[|r.calls| - 1]).error)
    ensures var r := PagesFrom(o, seed, next, fuel);
      |r.calls| > 0 && o.fetch(r.calls[|r.calls| - 1]) == Success(JNull) ==> r.result == Failure(NullRead("value"))
    ensures var r := PagesFrom(o, seed, next, fuel);
      r.result.Success? && |r.calls| > 0 ==>
        var last := o.fetch(r.calls[|r.calls| - 1]);
        last.Success? && last.value != JNull && PageToken(last.value).None?
  {
    var r := PagesFrom(o, seed, next, fuel);
    if next != "" && fuel > 0 {
      var req := GetRequest(next);
      if o.fetch(req).Success? && o.fetch(req).value != JNull && PageToken(o.fetch(req).value).Some? {
        var body := o.fetch(req).value;
        var token := PageToken(body).value;
        var follow := FollowUpUrl(o, seed, token);
        PagesFromSteps(o, seed, follow, fuel - 1);
        var rest := PagesFrom(o, seed, follow, fuel - 1);
        assert r == Prepend(PageItems(body), [req], rest);
        assert r.calls == [req] + rest.calls;
        forall i | 1 <= i < |r.calls|
          ensures TokenStep(o, seed, r.calls[i - 1], r.calls[i])
        {
          if i == 1 {
            assert follow != "";
            assert r.calls[1] == rest.calls[0] == GetRequest(follow);
          } else {
            assert r.calls[i - 1] == rest.calls[i - 2] && r.calls[i] == rest.calls[i - 1];
          }
        }
        if |rest.calls| > 0 {
          assert r.calls[|r.calls| - 1] == rest.calls[|rest.calls| - 1];
        }
      }
    }
  }

  /** Puts earlier items and calls in front of a later reply. */
  function Prepend(items: seq<Json>, calls: seq<Request>, rest: Reply<seq<Json>>): Reply<seq<Json>> {
    match rest.result
    case Success(v) => Reply(Success(items + v), calls + rest.calls)
    case Failure(e) => Reply(Failure(e), calls + rest.calls)
  }

  /** `fetchAllPaged(url)`. Every follow-up call is addressed to the seed URL
      with the previous page's token appended, not to the previous page's
      URL extended. */
  function FetchAllPaged(o: Oracle, url: string): (r: Reply<seq<Json>>)
    ensures forall i :: 0 <= i < |r.calls| ==> r.calls[i].verb == "GET"
    ensures url != "" && o.pageBudget > 0 ==> |r.calls| >= 1 && r.calls[0] == GetRequest(url)
    ensures forall i :: 1 <= i < |r.calls| ==> FollowsSeed(url, r.calls[i].url)
  {
    PagesFrom(o, url, url, o.pageBudget)
  }

  lemma PrependPrepend(all: seq<Json>, calls: seq<Request>, items: seq<Json>, more: seq<Request>, rest: Reply<seq<Json>>)
    ensures Prepend(all, calls, Prepend(items, more, rest)) == Prepend(all + items, calls + more, rest)
  {
    assert calls + (more + rest.calls) == (calls + more) + rest.calls;
    if rest.result.Success? {
      assert all + (items + rest.result.value) == (all + items) + rest.result.value;
    }
  }

  /** The `while (nextUrl)` loop of `fetchAllPaged`, computing what `FetchAllPaged`
      describes. */
  method FetchAllPagedLoop(o: Oracle, url: string) returns (r: Reply<seq<Json>>)
    ensures r == FetchAllPaged(o, url)
  {
    var all: seq<Json> := [];
    var calls: seq<Request> := [];
    var next := url;
    var fuel := o.pageBudget;
    PrependNothing(PagesFrom(o, url, next, fuel));
    while next != ""
      invariant Prepend(all, calls, PagesFrom(o, url, next, fuel)) == FetchAllPaged(o, url)
      decreases fuel, next != ""
    {
      if fuel == 0 {
        return Reply(Failure(Hang), calls);
      }
      var req := GetRequest(next);
      var res := o.fetch(req);
      if res.Failure? {
        return Reply(Failure(res.error), calls + [req]);
      }
      var body := res.value;
      if body == JNull {
        return Reply(Failure(NullRead("value")), calls + [req]);
      }
      var items := PageItems(body);
      var token := PageToken(body);
      PrependPrepend(all, calls, items, [req], PagesFrom(o, url, if token.Some? then FollowUpUrl(o, url, token.value) else "", fuel - 1));
      all := all + items;
      calls := calls + [req];
      if token.None? {
        return Reply(Success(all), calls);
      }
      next := FollowUpUrl(o, url, token.value);
      fuel := fuel - 1;
    }
    assert all + [] == all && calls + [] == calls;
    return Reply(Success(all), calls);
  }

  lemma PrependNothing(rest: Reply<seq<Json>>)
    ensures Prepend([], [], rest) == rest
  {
    assert [] + rest.calls == rest.calls;
    if rest.result.Success? {
      assert [] + rest.result.value == rest.result.value;
    }
  }

  /** Concatenation of the items of each page, in page order. */
  function Flatten(pages: seq<Json>): seq<Json> {
    if |pages| == 0 then [] else PageItems(pages[0]) + Flatten(pages[1..])
  }

  /** `pages` is what upstream serves when the pages are followed from the
      address `first`: each page is the answer at its address, every page
      but the last carries a token naming the next address, and the last
      carries none. */
  ghost predicate IsChain(o: Oracle, seed: string, first: string, pages: seq<Json>)
    decreases |pages|
  {
    && |pages| >= 1
    && first != ""
    && pages[0] != JNull
    && o.fetch(GetRequest(first)) == Success(pages[0])
    && (if |pages| == 1 then PageToken(pages[0]).None?
        else PageToken(pages[0]).Some? && IsChain(o, seed, FollowUpUrl(o, seed, PageToken(pages[0]).value), pages[1..]))
  }

  /** The addresses of a chain's pages, in page order. */
  function ChainUrls(o: Oracle, seed: string, first: string, pages: seq<Json>): (urls: seq<string>)
    ensures |urls| == |pages|
    decreases |pages|
  {
    if |pages| == 0 then []
    else [first] + ChainUrls(o, seed, FollowUpUrl(o, seed, PageToken(pages[0]).GetOr(JNull)), pages[1..])
  }

  /** A chain of pages P1..Pn is fetched as the concatenation of their item
      lists in page order, with one GET per page at the chain's addresses. */
  lemma {:induction false} ChainIsConcatenation(o: Oracle, seed: string, first: string, pages: seq<Json>, fuel: nat)
    requires IsChain(o, seed, first, pages)
    requires |pages| <= fuel
    decreases |pages|
    ensures PagesFrom(o, seed, first, fuel).result == Success(Flatten(pages))
    ensures |PagesFrom(o, seed, first, fuel).calls| == |pages|
    ensures forall i :: 0 <= i < |pages| ==>
      PagesFrom(o, seed, first, fuel).calls[i] == GetRequest(ChainUrls(o, seed, first, pages)[i])
  {
    var r := PagesFrom(o, seed, first, fuel);
    if |pages| == 1 {
      assert pages[1..] == [];
      assert Flatten(pages) == PageItems(pages[0]) + [];
      assert PageItems(pages[0]) + [] == PageItems(pages[0]);
      assert r == Reply(Success(PageItems(pages[0])), [GetRequest(first)]);
    } else {
      var next := FollowUpUrl(o, seed, PageToken(pages[0]).value);
      var tail := pages[1..];
      ChainIsConcatenation(o, seed, next, tail, fuel - 1);
      var rest := PagesFrom(o, seed, next, fuel - 1);
      assert r == Prepend(PageItems(pages[0]), [GetRequest(first)], rest);
      assert r.calls == [GetRequest(first)] + rest.calls;
      assert Flatten(pages) == PageItems(pages[0]) + Flatten(tail);
      var urls := ChainUrls(o, seed, first, pages);
      assert urls == [first] + ChainUrls(o, seed, next, tail);
      forall i | 0 < i < |pages|
        ensures r.calls[i] == GetRequest(urls[i])
      {
        assert r.calls[i] == rest.calls[i - 1];
      }
    }
  }

  /** Start index of `slice(start, ...)` on a sequence of length `len`:
      negative positions count from the end, all positions are clamped. */
  function SliceIndex(len: nat, k: int): (r: nat)
    ensures r <= len
    ensures 0 <= k <= len ==> r == k
    ensures -(len as int) <= k < 0 ==> r == len + k
    ensures k < -(len as int) ==> r == 0
    ensures k > len ==> r == len
  {
    if k < 0 then (if len + k < 0 then 0 else len + k)
    else if k > len then len else k
  }

  /** `Array.prototype.slice(start, end)`, `None` standing for an omitted end. */
  function Slice(s: seq<Json>, start: int, end: Option<int>): (r: seq<Json>)
    ensures SliceIndex(|s|, start) + |r| <= |s|
    ensures r == s[SliceIndex(|s|, start)..SliceIndex(|s|, start) + |r|]
    ensures end.None? ==> r == s[SliceIndex(|s|, start)..]
    ensures end.Some? ==> var from, to := SliceIndex(|s|, start), SliceIndex(|s|, end.value);
      |r| == if from < to then to - from else 0
  {
    var from := SliceIndex(|s|, start);
    var to := if end.None? then |s| else SliceIndex(|s|, end.value);
    if from < to then s[from..to] else []
  }

  /** `skip || 0`. */
  function StartOf(skip: Option<Num>): int {
    match skip
    case Some(Int(n)) => n
    case _ => 0
  }

  /** `top ? start + top : undefined`: a zero or NaN `top` sets no end. */
  function EndOf(start: int, top: Option<Num>): Option<int> {
    match top
    case Some(Int(n)) => if n != 0 then Some(start + n) else None
    case _ => None
  }

  /** A non-zero `top`, the only kind that sets an end to the window. */
  predicate Caps(top: Option<Num>) {
    top.Some? && top.value.Int? && top.value.i != 0
  }

  /** The window `listPipelines` and `listPipelineRuns` apply to the full
      collection. */
  function Window(all: seq<Json>, top: Option<Num>, skip: Option<Num>): (items: seq<Json>)
    ensures top.None? && skip.None? ==> items == all
    ensures var lo := SliceIndex(|all|, StartOf(skip));
      lo + |items| <= |all| && items == all[lo..lo + |items|]
    ensures !Caps(top) ==> items == all[SliceIndex(|all|, StartOf(skip))..]
    ensures top.Some? && top.value.Int? && top.value.i > 0 ==> |items| <= top.value.i
    ensures Caps(top) && top.value.i > 0 && StartOf(skip) >= 0 ==>
      var lo := SliceIndex(|all|, StartOf(skip));
      items == all[lo..if lo + top.value.i <= |all| then lo + top.value.i else |all|]
    ensures StartOf(skip) >= |all| ==> items == []
    ensures Caps(top) ==>
      var lo, hi := SliceIndex(|all|, StartOf(skip)), SliceIndex(|all|, StartOf(skip) + top.value.i);
      |items| == if lo < hi then hi - lo else 0
    ensures |items| <= |all|
  {
    if skip.None? && top.None? then all
    else
      var start := StartOf(skip);
      Slice(all, start, EndOf(start, top))
  }

  /** A window never starts before the requested offset: with a
      non-negative `skip` the first item is the one at position `skip`. */
  lemma WindowStartsAtSkip(all: seq<Json>, top: Option<Num>, skip: nat)
    requires skip < |all|
    requires !Caps(top) || top.value.i > 0
    ensures |Window(all, top, Some(Int(skip)))| >= 1
    ensures Window(all, top, Some(Int(skip)))[0] == all[skip]
  {
  }

  /** 23 items with `top` 10 and `skip` 5 give items 5 to 14. */
  lemma WindowExample(all: seq<Json>)
    requires |all| == 23
    ensures Window(all, Some(Int(10)), Some(Int(5))) == all[5..15]
  {
  }
}

=== FILE: router.dfy ===
/** `handleRequest`: the path-segment router in front of the client, and the
    translation of thrown errors into HTTP statuses. */
module Router {
  import opened Wrappers
  import opened JsText
  import opened JsValue
  import opened Transport
  import Client
  import Enrichment
  import RunBody

  /** The client operation a request is dispatched to, with its arguments as
      the router computes them. */
  datatype Op =
    | ListPipelines(top: Option<Num>, skip: Option<Num>)
    | ListEnriched(top: Option<Num>, skip: Option<Num>)
    | GetPipeline(pipelineId: int)
    | ListRuns(pipelineId: int, top: Option<Num>, skip: Option<Num>)
    | RunPipeline(pipelineId: int, options: Json)
    | GetRun(pipelineId: int, runId: int)
    | CancelRun(pipelineId: int, runId: int)
    | ListArtifacts(buildId: int)

  /** The outcome of routing, before any upstream call. `Raise` is an error
      thrown by the router itself, answered like a client error. */
  datatype Route =
    | Descriptor
    | BadRequest(message: string)
    | NotFound
    | Call(op: Op)
    | Raise(message: string)

  const InvalidPipelineId := "Invalid Pipeline ID"
  const InvalidRunId := "Invalid Run ID"
  const InvalidBuildId := "Invalid Build ID"

  /** Segment `i` of the destructuring `[resource, id, subResource, subId]`. */
  function Segment(segments: seq<string>, i: nat): Option<string> {
    if i < |segments| then Some(segments[i]) else None
  }

  /** A segment that is neither missing nor empty. */
  predicate Present(v: Option<string>) {
    v.Some? && v.value != ""
  }

  /** `parseInt(segment)`; a missing segment is the string "undefined". */
  function ParseSegment(v: Option<string>): Num {
    ParseInt(if v.Some? then v.value else "undefined")
  }

  /** A missing or empty segment never parses as a number. */
  lemma AbsentSegmentIsNaN(v: Option<string>)
    ensures !Present(v) ==> ParseSegment(v).NaN?
  {
    if v.None? {
      ParseIntNoDigits("undefined");
    }
  }

  /** The destructured request path together with the two `parseInt`
      readings the router takes of it: `parseInt(id)` (the pipeline or build
      id) and `parseInt(subId)` (the run id). */
  datatype Path = Path(resource: Option<string>, id: Option<string>, subResource: Option<string>,
                       subId: Option<string>, idNumber: Num, subIdNumber: Num)

  /** What every path read off real segments satisfies: an absent id or
      run id reads as NaN. */
  predicate Consistent(p: Path) {
    && (!Present(p.id) ==> p.idNumber.NaN?)
    && (!Present(p.subId) ==> p.subIdNumber.NaN?)
  }

  function PathOf(segments: seq<string>): (p: Path)
    ensures p.resource.None? <==> |segments| == 0
    ensures Consistent(p)
  {
    AbsentSegmentIsNaN(Segment(segments, 1));
    AbsentSegmentIsNaN(Segment(segments, 3));
    Path(Segment(segments, 0), Segment(segments, 1), Segment(segments, 2), Segment(segments, 3),
         ParseSegment(Segment(segments, 1)), ParseSegment(Segment(segments, 3)))
  }

  /** `pipelines/:id...` with an id that parses. */
  predicate AtPipeline(p: Path) {
    p.resource == Some("pipelines") && p.idNumber.Int?
  }

  /** A runs-collection request: `pipelines/:id/runs` with no run id. */
  predicate AtRuns(p: Path) {
    AtPipeline(p) && p.subResource == Some("runs") && !Present(p.subId)
  }

  /** A single-run request: `pipelines/:id/runs/:runId`. */
  predicate AtRun(p: Path) {
    AtPipeline(p) && p.subResource == Some("runs") && Present(p.subId)
  }

  /** `builds/:id/artifacts` with a non-empty id. */
  predicate AtBuildArtifacts(p: Path) {
    p.resource == Some("builds") && Present(p.id) && p.subResource == Some("artifacts")
  }

  /** `searchParams.get(a) || searchParams.get(b)`: the first alias wins only
      when it is non-empty. */
  function AliasParam(query: map<string, string>, a: string, b: string): Option<string> {
    if a in query && query[a] != "" then Some(query[a])
    else if b in query then Some(query[b]) else None
  }

  /** `param ? parseInt(param) : undefined`. */
  function NumberParam(v: Option<string>): Option<Num> {
    if Present(v) then Some(ParseInt(v.value)) else None
  }

  function TopOf(query: map<string, string>): Option<Num> {
    NumberParam(AliasParam(query, "top", "$top"))
  }

  function SkipOf(query: map<string, string>): Option<Num> {
    NumberParam(AliasParam(query, "skip", "$skip"))
  }

  /** `searchParams.get(name)`. */
  function QueryParam(query: map<string, string>, name: string): Option<string> {
    if name in query then Some(query[name]) else None
  }

  /** `await req.json().catch(() => ({}))`: `None` is a body that does not
      parse. */
  function BodyOf(body: Option<Json>): Json {
    if body.Some? then body.value else JObj(map[])
  }

  /** The dispatch of `handleRequest` on the request path. */
  function Dispatch(segments: seq<string>, verb: string, query: map<string, string>, body: Option<Json>): (r: Route)
    ensures r == Descriptor <==> |segments| == 0
    ensures |segments| > 0 && segments[0] != "pipelines" && segments[0] != "builds" ==> r == NotFound
    ensures |segments| == 1 ==> r.BadRequest? || r == NotFound
  {
    RoutePath(PathOf(segments), verb, query, body)
  }

  /** The branches of `handleRequest`, in the order `handleRequest` tests them. The pipeline id is
      validated before the `!id` test, so on a consistent path the listing
      branch that test guards is never taken. */
  function RoutePath(p: Path, verb: string, query: map<string, string>, body: Option<Json>): (r: Route)
    ensures r == Descriptor <==> p.resource.None?
    ensures r.Call? ==> verb == (if r.op.RunPipeline? then "POST" else if r.op.CancelRun? then "PATCH" else "GET")
    ensures r.Raise? ==> verb == "PATCH" && BodyOf(body) == JNull
    ensures r.BadRequest? ==> r.message in {InvalidPipelineId, InvalidRunId, InvalidBuildId}
    ensures p.resource.Some? && p.resource != Some("pipelines") && p.resource != Some("builds") ==> r == NotFound
  {
    match p.resource
    case None => Descriptor
    case Some(resource) =>
      if resource == "pipelines" then
        match p.idNumber
        case NaN => BadRequest(InvalidPipelineId)
        case Int(pipelineId) =>
          if !Present(p.id) then ListRoute(verb, query)
          else if !Present(p.subResource) then
            if verb == "GET" then Call(GetPipeline(pipelineId)) else NotFound
          else if p.subResource.value == "runs" then RunsRoute(p, pipelineId, verb, query, body)
          else NotFound
      else if resource == "builds" then
        if Present(p.id) && p.subResource == Some("artifacts") then
          match p.idNumber
          case NaN => BadRequest(InvalidBuildId)
          case Int(buildId) => if verb == "GET" then Call(ListArtifacts(buildId)) else NotFound
        else NotFound
      else NotFound
  }

  /** `pipelines` with no id: the simple or the enriched listing. */
  function ListRoute(verb: string, query: map<string, string>): Route {
    if verb == "GET" then
      if QueryParam(query, "mode") == Some("simple") then Call(ListPipelines(TopOf(query), SkipOf(query)))
      else Call(ListEnriched(TopOf(query), SkipOf(query)))
    else NotFound
  }

  /** `pipelines/:id/runs...`. */
  function RunsRoute(p: Path, pipelineId: int, verb: string, query: map<string, string>, body: Option<Json>): Route {
    if !Present(p.subId) then
      if verb == "GET" then Call(ListRuns(pipelineId, TopOf(query), SkipOf(query)))
      else if verb == "POST" then Call(RunPipeline(pipelineId, BodyOf(body)))
      else NotFound
    else
      match p.subIdNumber
      case NaN => BadRequest(InvalidRunId)
      case Int(runId) =>
        if verb == "GET" then Call(GetRun(pipelineId, runId))
        else if verb == "PATCH" then
          var patch := BodyOf(body);
          if patch == JNull then Raise(NullRead("state").Message())
          else if Get(patch, "state") == Some(JStr("canceling")) then Call(CancelRun(pipelineId, runId))
          else NotFound
        else NotFound
  }

  /** The outline of the dispatch: only the bare root is the descriptor, the
      listings are never dispatched, only a null PATCH body on a run throws
      in the router, and resources other than `pipelines` and `builds` are
      not found. */
  lemma RouteOutline(p: Path, verb: string, query: map<string, string>, body: Option<Json>)
    requires Consistent(p)
    ensures RoutePath(p, verb, query, body) == Descriptor <==> p.resource.None?
    ensures RoutePath(p, verb, query, body).Call? ==>
      !RoutePath(p, verb, query, body).op.ListPipelines? && !RoutePath(p, verb, query, body).op.ListEnriched?
    ensures RoutePath(p, verb, query, body).Raise? <==>
      AtRun(p) && p.subIdNumber.Int? && verb == "PATCH" && BodyOf(body) == JNull
    ensures RoutePath(p, verb, query, body).Raise? ==>
      RoutePath(p, verb, query, body).message == NullRead("state").Message()
    ensures p.resource.Some? && p.resource != Some("pipelines") && p.resource != Some("builds") ==>
      RoutePath(p, verb, query, body) == NotFound
  {
  }

  /** A pipelines request is answered 400 exactly when its id does not
      parse, and `pipelines/:id` with GET and nothing after the id reads
      that pipeline; every pipeline operation gets the parsed id. */
  lemma PipelineLevelRoute(p: Path, verb: string, query: map<string, string>, body: Option<Json>)
    requires Consistent(p) && p.resource == Some("pipelines")
    ensures RoutePath(p, verb, query, body) == BadRequest(InvalidPipelineId) <==> p.idNumber.NaN?
    ensures RoutePath(p, verb, query, body).Call? && RoutePath(p, verb, query, body).op.GetPipeline? <==>
      p.idNumber.Int? && !Present(p.subResource) && verb == "GET"
    ensures RoutePath(p, verb, query, body).Call? ==>
      var op := RoutePath(p, verb, query, body).op;
      (op.GetPipeline? || op.ListRuns? || op.RunPipeline? || op.GetRun? || op.CancelRun?) &&
      p.idNumber == Int(op.pipelineId)
  {
  }

  /** `pipelines/:id/runs`: GET lists the runs with the query's `top` and
      `skip`, POST triggers a run with the parsed body, and nothing else
      lists or triggers. */
  lemma RunsLevelRoute(p: Path, verb: string, query: map<string, string>, body: Option<Json>)
    requires Consistent(p)
    ensures RoutePath(p, verb, query, body).Call? && RoutePath(p, verb, query, body).op.ListRuns? <==>
      AtRuns(p) && verb == "GET"
    ensures RoutePath(p, verb, query, body).Call? && RoutePath(p, verb, query, body).op.RunPipeline? <==>
      AtRuns(p) && verb == "POST"
    ensures AtRuns(p) && verb == "GET" ==>
      RoutePath(p, verb, query, body) == Call(ListRuns(p.idNumber.i, TopOf(query), SkipOf(query)))
    ensures AtRuns(p) && verb == "POST" ==>
      RoutePath(p, verb, query, body) == Call(RunPipeline(p.idNumber.i, BodyOf(body)))
  {
  }

  /** `pipelines/:id/runs/:runId`: the run id must parse; GET reads the run;
      PATCH cancels only with `state` "canceling", any other non-null PATCH
      body is not found. */
  lemma RunLevelRoute(p: Path, verb: string, query: map<string, string>, body: Option<Json>)
    requires Consistent(p)
    ensures RoutePath(p, verb, query, body) == BadRequest(InvalidRunId) <==> AtRun(p) && p.subIdNumber.NaN?
    ensures RoutePath(p, verb, query, body).Call? && RoutePath(p, verb, query, body).op.GetRun? <==>
      AtRun(p) && p.subIdNumber.Int? && verb == "GET"
    ensures RoutePath(p, verb, query, body).Call? && RoutePath(p, verb, query, body).op.CancelRun? <==>
      AtRun(p) && p.subIdNumber.Int? && verb == "PATCH" &&
      BodyOf(body) != JNull && Get(BodyOf(body), "state") == Some(JStr("canceling"))
    ensures (AtRun(p) && p.subIdNumber.Int? && verb == "PATCH" && BodyOf(body) != JNull &&
             Get(BodyOf(body), "state") != Some(JStr("canceling"))) ==> RoutePath(p, verb, query, body) == NotFound
    ensures (RoutePath(p, verb, query, body).Call? &&
             (RoutePath(p, verb, query, body).op.GetRun? || RoutePath(p, verb, query, body).op.CancelRun?)) ==>
      p.subIdNumber == Int(RoutePath(p, verb, query, body).op.runId)
  {
  }

  /** `builds/:id/artifacts`: the build id must parse; GET lists the
      artifacts; any other `builds` path is not found. */
  lemma BuildsLevelRoute(p: Path, verb: string, query: map<string, string>, body: Option<Json>)
    requires Consistent(p)
    ensures RoutePath(p, verb, query, body) == BadRequest(InvalidBuildId) <==>
      AtBuildArtifacts(p) && p.idNumber.NaN?
    ensures RoutePath(p, verb, query, body).Call? && RoutePath(p, verb, query, body).op.ListArtifacts? <==>
      AtBuildArtifacts(p) && p.idNumber.Int? && verb == "GET"
    ensures RoutePath(p, verb, query, body).Call? && RoutePath(p, verb, query, body).op.ListArtifacts? ==>
      p.idNumber == Int(RoutePath(p, verb, query, body).op.buildId)
    ensures p.resource == Some("builds") && !AtBuildArtifacts(p) ==> RoutePath(p, verb, query, body) == NotFound
  {
  }

  /** `pipelines` alone is answered 400 whatever the method: the listing is
      unreachable. */
  lemma ListingUnreachable(verb: string, query: map<string, string>, body: Option<Json>)
    ensures Dispatch(["pipelines"], verb, query, body) == BadRequest(InvalidPipelineId)
  {
    var p := PathOf(["pipelines"]);
    assert p.resource == Some("pipelines") && p.id.None?;
  }

  /** Only the first four segments are read: anything after them never
      changes the dispatch. */
  lemma TrailingSegmentsIgnored(segments: seq<string>, extra: seq<string>, verb: string, query: map<string, string>, body: Option<Json>)
    requires |segments| >= 4
    ensures Dispatch(segments + extra, verb, query, body) == Dispatch(segments, verb, query, body)
  {
    forall i: nat | i < 4
      ensures Segment(segments + extra, i) == Segment(segments, i)
    {
      assert (segments + extra)[i] == segments[i];
    }
    assert PathOf(segments + extra) == PathOf(segments);
  }

  /** The path the ids are printed into is routed back to the same ids:
      GET `pipelines/${p}/runs/${r}` reads run r of pipeline p. */
  lemma GetRunPathRoundTrip(p: int, r: int, query: map<string, string>, body: Option<Json>)
    ensures Dispatch(["pipelines", IntToString(p), "runs", IntToString(r)], "GET", query, body) == Call(GetRun(p, r))
  {
    ParseIntRoundTrip(p);
    ParseIntRoundTrip(r);
    var path := PathOf(["pipelines", IntToString(p), "runs", IntToString(r)]);
    assert path.idNumber == Int(p) && path.subIdNumber == Int(r);
    assert AtRun(path);
    RunLevelRoute(path, "GET", query, body);
  }

  /** Ids are read by `parseInt`, so `pipelines/7abc` reads pipeline 7. */
  lemma LeadingDigitsId(p: nat, junk: string, query: map<string, string>, body: Option<Json>)
    requires |junk| > 0 && !IsDecimalDigit(junk[0])
    requires p == 0 ==> junk[0] != 'x' && junk[0] != 'X'
    ensures Dispatch(["pipelines", NatToString(p) + junk], "GET", query, body) == Call(GetPipeline(p))
  {
    ParseIntLeadingNumber(p, junk);
    var path := PathOf(["pipelines", NatToString(p) + junk]);
    assert path.idNumber == Int(p) && path.subResource.None?;
  }

  /** An id that starts with anything but whitespace, a sign or a digit is
      answered 400 (`pipelines/abc`). */
  lemma NonNumericPipelineId(id: string, rest: seq<string>, verb: string, query: map<string, string>, body: Option<Json>)
    requires |id| > 0 && !IsJsSpace(id[0]) && !IsDecimalDigit(id[0]) && id[0] != '-' && id[0] != '+'
    ensures Dispatch(["pipelines", id] + rest, verb, query, body) == BadRequest(InvalidPipelineId)
  {
    ParseIntNoDigits(id);
    var path := PathOf(["pipelines", id] + rest);
    assert Segment(["pipelines", id] + rest, 1) == Some(id);
    assert path.resource == Some("pipelines") && path.idNumber == NaN;
  }

  /** `/^(\d{3})\s/` on the error message: three leading digits followed by
      whitespace give the status, anything else gives 500. */
  function StatusOf(message: string): (status: int)
    ensures 0 <= status <= 999
    ensures (|message| >= 4 && AllDecimalDigits(message[..3]) && IsJsSpace(message[3])) ==>
      status == DigitsValue(message[..3], 10)
    ensures !(|message| >= 4 && AllDecimalDigits(message[..3]) && IsJsSpace(message[3])) ==> status == 500
  {
    if |message| >= 4 && AllDecimalDigits(message[..3]) && IsJsSpace(message[3]) then
      ThreeDigitsBelowThousand(message[..3]);
      DigitsValue(message[..3], 10)
    else 500
  }

  lemma ThreeDigitsBelowThousand(ds: string)
    requires |ds| == 3 && AllDecimalDigits(ds)
    ensures DigitsValue(ds, 10) <= 999
  {
    DigitsBound(ds);
  }

  function Pow10(k: nat): nat {
    if k == 0 then 1 else 10 * Pow10(k - 1)
  }

  lemma {:induction false} DigitsBound(ds: string)
    requires AllDecimalDigits(ds)
    ensures DigitsValue(ds, 10) < Pow10(|ds|)
  {
    if |ds| > 0 {
      var init := ds[..|ds| - 1];
      assert AllDecimalDigits(init) by {
        forall i | 0 <= i < |init| ensures IsDecimalDigit(init[i]) {
          assert init[i] == ds[i];
        }
      }
      DigitsBound(init);
      assert DigitValue(ds[|ds| - 1]) <= 9;
    }
  }

  /** An upstream error with a three-digit status reaches the caller with
      that same status, through the message format of `fetchJson`. */
  lemma {:induction false} UpstreamStatusPreserved(status: int, statusText: string, text: string)
    requires 100 <= status <= 999
    ensures StatusOf(HttpError(status, statusText, text).Message()) == status
  {
    var digits := NatToString(status);
    assert |NatToString(status / 100)| == 1;
    assert |NatToString(status / 10)| == 2;
    assert |digits| == 3;
    var message := HttpError(status, statusText, text).Message();
    assert message == digits + (" " + statusText + " - " + text);
    assert message[..3] == digits;
    assert message[3] == ' ';
    NatToStringValue(status);
  }

  /** What the router answers: a JSON body with a status; nothing at all
      when an upstream call never settles; or `Escaped` when building the
      error answer itself throws, so that `handleRequest` rejects and the
      framework answers in its place. */
  datatype Response = Respond(status: int, payload: Json) | Pending | Escaped

  /** The statuses `NextResponse.json` accepts with a body: the `Response`
      constructor throws a RangeError outside 200..599 and a TypeError for
      the null-body statuses 204, 205 and 304. */
  predicate Answerable(status: int) {
    200 <= status <= 599 && status != 204 && status != 205 && status != 304
  }

  datatype Handled = Handled(response: Response, calls: seq<Request>)

  function ErrorBody(message: string): Json {
    JObj(map["error" := JStr(message)])
  }

  /** The `catch` of `handleRequest`. */
  function ErrorResponse(f: Failure): (r: Response)
    ensures f.Hang? <==> r.Pending?
    ensures r.Respond? <==> f.Catchable() && Answerable(StatusOf(f.Message()))
    ensures r.Respond? ==> r.status == StatusOf(f.Message()) && r.payload == ErrorBody(f.Message())
  {
    if f.Hang? then Pending
    else if Answerable(StatusOf(f.Message())) then Respond(StatusOf(f.Message()), ErrorBody(f.Message()))
    else Escaped
  }

  /** Runs one client operation; ids become their decimal text in URLs. */
  function Execute(o: Oracle, c: Client.AdoClient, op: Op): (r: Reply<Json>)
    ensures op.GetPipeline? ==>
      r.calls == [GetRequest(Client.Versioned(c, "/pipelines/" + IntToString(op.pipelineId)))] &&
      r.result == o.fetch(r.calls[0])
    ensures op.GetRun? ==>
      r.calls == [GetRequest(Client.Versioned(c, "/pipelines/" + IntToString(op.pipelineId) + "/runs/" + IntToString(op.runId)))] &&
      r.result == o.fetch(r.calls[0])
    ensures op.CancelRun? ==>
      r.calls == [Request("PATCH", Client.Versioned(c, "/build/builds/" + IntToString(op.runId)),
                          Some(JObj(map["status" := JStr("cancelling")])))] &&
      r.result == o.fetch(r.calls[0])
    ensures op.ListArtifacts? ==>
      r.calls == [GetRequest(Client.Versioned(c, "/build/builds/" + IntToString(op.buildId) + "/artifacts"))]
    ensures op.ListPipelines? && o.pageBudget > 0 ==>
      |r.calls| >= 1 && r.calls[0] == GetRequest(Client.Versioned(c, "/pipelines") + Client.TopParam(op.top))
    ensures op.ListRuns? && o.pageBudget > 0 ==>
      |r.calls| >= 1 &&
      r.calls[0] == GetRequest(Client.Versioned(c, "/pipelines/" + IntToString(op.pipelineId) + "/runs") + Client.TopParam(op.top))
    ensures op.RunPipeline? && op.options != JNull && RunBody.BuildRunBody(op.options).Success? ==>
      |r.calls| >= 1 &&
      r.calls[0] == Request("POST", Client.Versioned(c, "/pipelines/" + IntToString(op.pipelineId) + "/runs"),
                            Some(RunBody.BuildRunBody(op.options).value))
  {
    match op
    case ListPipelines(top, skip) => AsJson(Client.ListPipelines(o, c, top, skip))
    case ListEnriched(top, skip) => AsJson(Enrichment.ListEnriched(o, c, top, skip))
    case GetPipeline(id) => Client.GetPipeline(o, c, IntToString(id))
    case ListRuns(id, top, skip) => AsJson(Client.ListPipelineRuns(o, c, IntToString(id), top, skip))
    case RunPipeline(id, options) => Client.RunPipeline(o, c, IntToString(id), options)
    case GetRun(id, runId) =>
      assert Client.RunsPath(IntToString(id)) + "/" + IntToString(runId)
          == "/pipelines/" + IntToString(id) + "/runs/" + IntToString(runId);
      Client.GetRun(o, c, IntToString(id), IntToString(runId))
    case CancelRun(id, runId) => Client.CancelRun(o, c, IntToString(id), IntToString(runId))
    case ListArtifacts(id) => Client.ListBuildArtifacts(o, c, IntToString(id))
  }

  function AsJson(r: Reply<Client.Listing>): Reply<Json> {
    match r.result
    case Success(l) => Reply(Success(Client.ListingJson(l)), r.calls)
    case Failure(e) => Reply(Failure(e), r.calls)
  }

  const DescriptorBody := JObj(map["message" := JStr("ADO Connector API")])
  const NotFoundBody := ErrorBody("Not Found")

  /** The answer `handleRequest` gives to a routing outcome. Outcomes other
      than a call answer without touching upstream; a call answers 200 with
      upstream's data, or the status its error message carries; the error
      the router throws itself goes through the same `catch`. */
  function Answer(o: Oracle, c: Client.AdoClient, route: Route): (h: Handled)
    ensures route == Descriptor ==> h == Handled(Respond(200, DescriptorBody), [])
    ensures !route.Call? ==> h.calls == []
    ensures !route.Call? && !route.Raise? ==> h.response.Respond?
    ensures route == NotFound ==> h.response == Respond(404, NotFoundBody)
    ensures route.BadRequest? ==> h.response == Respond(400, ErrorBody(route.message))
    ensures route.Raise? ==> (h.response.Respond? <==> Answerable(StatusOf(route.message)))
    ensures route.Raise? && h.response.Respond? ==>
      h.response == Respond(StatusOf(route.message), ErrorBody(route.message))
    ensures h.response.Respond? && h.response.status != 200 ==>
      h.response.payload.JObj? && "error" in h.response.payload.fields
    ensures route.Call? ==>
      var reply := Execute(o, c, route.op);
      && h.calls == reply.calls
      && (reply.result.Success? ==> h.response == Respond(200, reply.result.value))
      && (reply.result.Failure? ==> h.response == ErrorResponse(reply.result.error))
  {
    match route
    case Descriptor => Handled(Respond(200, DescriptorBody), [])
    case BadRequest(message) => Handled(Respond(400, ErrorBody(message)), [])
    case NotFound => Handled(Respond(404, NotFoundBody), [])
    case Raise(message) => Handled(ErrorResponse(Thrown(message)), [])
    case Call(op) =>
      var reply := Execute(o, c, op);
      match reply.result
      case Success(data) => Handled(Respond(200, data), reply.calls)
      case Failure(f) => Handled(ErrorResponse(f), reply.calls)
  }

  /** `handleRequest` end to end. */
  function Handle(o: Oracle, c: Client.AdoClient, segments: seq<string>, verb: string,
                  query: map<string, string>, body: Option<Json>): Handled {
    Answer(o, c, Dispatch(segments, verb, query, body))
  }

  /** A null PATCH body on a run is answered 500: the TypeError's message
      carries no status. */
  lemma NullPatchAnswered500(o: Oracle, c: Client.AdoClient, key: string)
    ensures Answer(o, c, Raise(NullRead(key).Message())).response == Respond(500, ErrorBody(NullRead(key).Message()))
  {
    var prefix := "Cannot read properties of null (reading '";
    var message := NullRead(key).Message();
    assert message == prefix + (key + "')");
    assert message[0] == prefix[0] == 'C';
    assert !AllDecimalDigits(message[..3]) by {
      assert message[..3][0] == 'C';
    }
  }

  /** A dispatched call that fails upstream with status s is answered with
      status s when a response may carry it; otherwise answering throws. */
  lemma UpstreamErrorStatus(o: Oracle, c: Client.AdoClient, route: Route, status: int, statusText: string, text: string)
    requires route.Call?
    requires Execute(o, c, route.op).result == Failure(HttpError(status, statusText, text))
    requires 100 <= status <= 999
    ensures Answerable(status) ==>
      Answer(o, c, route).response == Respond(status, ErrorBody(HttpError(status, statusText, text).Message()))
    ensures !Answerable(status) ==> Answer(o, c, route).response == Escaped
  {
    UpstreamStatusPreserved(status, statusText, text);
  }
}

=== FILE: run_body.dfy ===
/** The request body `runPipeline` posts: pass-through `resources` and
    `templateParameters`, a branch written into
    `resources.repositories.self.refName`, and normalised `variables`. */
module RunBody {
  import opened Wrappers
  import opened JsValue
  import opened Transport

  /** Where a requested branch goes, below `body.resources`. */
  const RefPath: seq<string> := ["repositories", "self", "refName"]

  /** The value reached by reading `path` property by property, if every
      step lands on an object that has the property. */
  function Lookup(j: Json, path: seq<string>): Option<Json>
    decreases |path|
  {
    if |path| == 0 then Some(j)
    else
      match Get(j, path[0])
      case None => None
      case Some(child) => Lookup(child, path[1..])
  }

  /** Walking `path` with `x.k = x.k || {}` meets a truthy primitive, on
      which strict-mode JavaScript refuses to create a property. */
  predicate Blocked(o: Json, path: seq<string>)
    requires |path| >= 1
    decreases |path|
  {
    match o
    case JObj(m) => |path| > 1 && path[0] in m && Truthy(m[path[0]]) && Blocked(m[path[0]], path[1..])
    case JArr(_) => false
    case _ => true
  }

  /** Walking `path` meets an array: properties set on an array are not
      part of its JSON, so the assignment is lost. */
  predicate MeetsArray(o: Json, path: seq<string>)
    requires |path| >= 1
    decreases |path|
  {
    match o
    case JObj(m) => |path| > 1 && path[0] in m && Truthy(m[path[0]]) && MeetsArray(m[path[0]], path[1..])
    case JArr(_) => true
    case _ => false
  }

  function TypeError(o: Json, key: string): Failure {
    match o
    case JNull => Thrown("Cannot set properties of null (setting '" + key + "')")
    case JBool(_) => Thrown("Cannot create property '" + key + "' on boolean '" + ToJsString(o) + "'")
    case JNum(_) => Thrown("Cannot create property '" + key + "' on number '" + ToJsString(o) + "'")
    case _ => Thrown("Cannot create property '" + key + "' on string '" + ToJsString(o) + "'")
  }

  /** The statements `o.k1 = o.k1 || {}; o.k1.k2 = o.k1.k2 || {}; ...;
      o.k1...kn = v`, as the JSON that is finally serialised. */
  function AssignPath(o: Json, path: seq<string>, v: Json): (r: Result<Json, Failure>)
    requires |path| >= 1
    ensures r.Failure? <==> Blocked(o, path)
    ensures r.Success? && o.JObj? ==> r.value.JObj?
    ensures r.Success? && !MeetsArray(o, path) ==> Lookup(r.value, path) == Some(v)
    ensures r.Success? && o.JArr? ==> r.value == o
    decreases |path|
  {
    match o
    case JObj(m) =>
      if |path| == 1 then Success(JObj(m[path[0] := v]))
      else
        var child := if path[0] in m && Truthy(m[path[0]]) then m[path[0]] else JObj(map[]);
        (match AssignPath(child, path[1..], v)
         case Success(c) => Success(JObj(m[path[0] := c]))
         case Failure(e) => Failure(e))
    case JArr(_) => Success(o)
    case _ => Failure(TypeError(o, path[0]))
  }

  /** `r` is `o` with only the entries along `path` touched: every other key
      of every object on the way keeps its value. */
  ghost predicate KeepsOthers(o: Json, r: Json, path: seq<string>)
    requires |path| >= 1
    decreases |path|
  {
    o.JObj? ==>
      && r.JObj?
      && o.fields.Keys <= r.fields.Keys
      && (forall k :: k in o.fields && k != path[0] ==> r.fields[k] == o.fields[k])
      && (|path| > 1 && path[0] in o.fields && Truthy(o.fields[path[0]]) ==>
            KeepsOthers(o.fields[path[0]], r.fields[path[0]], path[1..]))
  }

  /** Setting the branch never drops a key the caller supplied. */
  lemma {:induction false} AssignPathKeepsOthers(o: Json, path: seq<string>, v: Json)
    requires |path| >= 1
    requires AssignPath(o, path, v).Success?
    ensures KeepsOthers(o, AssignPath(o, path, v).value, path)
    decreases |path|
  {
    if o.JObj? && |path| > 1 {
      var m := o.fields;
      var child := if path[0] in m && Truthy(m[path[0]]) then m[path[0]] else JObj(map[]);
      AssignPathKeepsOthers(child, path[1..], v);
    }
  }

  /** A string variable `s` becomes `{value: s}`; anything else is kept. */
  function NormalizeVariable(v: Json): (r: Json)
    ensures v.JStr? ==> r.JObj? && r.fields.Keys == {"value"} && r.fields["value"] == v
    ensures !v.JStr? ==> r == v
  {
    if v.JStr? then JObj(map["value" := v]) else v
  }

  /** The loop over `Object.entries(options.variables)`. */
  function NormalizeVariables(vars: Json): (r: map<string, Json>)
    ensures r.Keys == Entries(vars).Keys
    ensures vars.JObj? ==> r.Keys == vars.fields.Keys
    ensures forall k :: k in r ==> r[k] == NormalizeVariable(Entries(vars)[k])
  {
    var e := Entries(vars);
    map k | k in e :: NormalizeVariable(e[k])
  }

  /** The body posted by `runPipeline`, from an options object that is not
      null. A failure is the TypeError of writing the branch into a
      primitive. */
  function BuildRunBody(options: Json): (r: Result<Json, Failure>)
    requires options != JNull
    ensures r.Success? ==> r.value.JObj? && r.value.fields.Keys <= {"resources", "templateParameters", "variables"}
    // variables
    ensures r.Success? ==> ("variables" in r.value.fields <==> IsTruthy(Get(options, "variables")))
    ensures r.Success? && "variables" in r.value.fields ==>
      r.value.fields["variables"] == JObj(NormalizeVariables(Get(options, "variables").value))
    // template parameters
    ensures r.Success? ==> ("templateParameters" in r.value.fields <==> IsTruthy(Get(options, "templateParameters")))
    ensures r.Success? && "templateParameters" in r.value.fields ==>
      r.value.fields["templateParameters"] == Get(options, "templateParameters").value
    // no branch: resources pass through untouched, or stay absent
    ensures !IsTruthy(Get(options, "branch")) ==> r.Success?
    ensures !IsTruthy(Get(options, "branch")) ==>
      ("resources" in r.value.fields <==> IsTruthy(Get(options, "resources")))
    ensures !IsTruthy(Get(options, "branch")) && "resources" in r.value.fields ==>
      r.value.fields["resources"] == Get(options, "resources").value
    // a branch: written into refName, failing only on a primitive container
    ensures IsTruthy(Get(options, "branch")) ==>
      (r.Failure? <==> IsTruthy(Get(options, "resources")) && Blocked(Get(options, "resources").value, RefPath))
    ensures IsTruthy(Get(options, "branch")) && r.Success? ==> "resources" in r.value.fields
    ensures IsTruthy(Get(options, "branch")) && r.Success? && !(IsTruthy(Get(options, "resources")) && MeetsArray(Get(options, "resources").value, RefPath)) ==>
      Lookup(r.value, ["resources"] + RefPath) == Some(Get(options, "branch").value)
  {
    var res := Get(options, "resources");
    var body1: map<string, Json> := if IsTruthy(res) then map["resources" := res.value] else map[];
    var branch := Get(options, "branch");
    var body2 :=
      if IsTruthy(branch) then
        var current := if "resources" in body1 then body1["resources"] else JObj(map[]);
        match AssignPath(current, RefPath, branch.value)
        case Success(resources) => Success(body1["resources" := resources])
        case Failure(e) => Failure(e)
      else Success(body1);
    match body2
    case Failure(e) => Failure(e)
    case Success(b2) =>
      var tp := Get(options, "templateParameters");
      var b3 := if IsTruthy(tp) then b2["templateParameters" := tp.value] else b2;
      var vars := Get(options, "variables");
      var b4 := if IsTruthy(vars) then b3["variables" := JObj(NormalizeVariables(vars.value))] else b3;
      Success(JObj(b4))
  }

  /** With a branch, the supplied resources lose nothing: every key at every
      level on the way to `refName` keeps its value. */
  lemma BranchKeepsResources(options: Json)
    requires options != JNull
    requires IsTruthy(Get(options, "branch")) && IsTruthy(Get(options, "resources"))
    requires BuildRunBody(options).Success?
    ensures KeepsOthers(Get(options, "resources").value, BuildRunBody(options).value.fields["resources"], RefPath)
  {
    AssignPathKeepsOthers(Get(options, "resources").value, RefPath, Get(options, "branch").value);
  }
}

=== FILE: transport.dfy ===
/** The boundary to the upstream REST service. Real HTTP is replaced by an
    oracle: a deterministic function from request to outcome. Under that
    assumption the concurrent fan-outs of the connector (`Promise.all` over
    calls that share no mutable state) compute the same values as a
    sequential map, which is how they are modelled. */
module Transport {
  import opened Wrappers
  import opened JsText
  import opened JsValue

  datatype Request = Request(verb: string, url: string, body: Option<Json>)

  function GetRequest(url: string): Request {
    Request("GET", url, None)
  }

  /** Why a call did not produce a value. `HttpError` is a non-2xx response,
      `Thrown` any other JavaScript error (network failure, unparsable
      body, a TypeError in the connector's own code), and `Hang` a call that
      never settles, which no `try`/`catch` can intercept. */
  datatype Failure =
    | HttpError(status: int, statusText: string, text: string)
    | Thrown(message: string)
    | Hang
  {
    /** The `message` of the JavaScript Error; `fetchJson` formats a non-2xx
        response as "<status> <statusText> - <text>". */
    function Message(): string
      requires !Hang?
    {
      match this
      case HttpError(status, statusText, text) => IntToString(status) + " " + statusText + " - " + text
      case Thrown(message) => message
    }

    /** Failures that a JavaScript `catch` sees. */
    predicate Catchable() { !Hang? }
  }

  /** The TypeError JavaScript raises when reading `key` of null. */
  function NullRead(key: string): Failure {
    Thrown("Cannot read properties of null (reading '" + key + "')")
  }

  /** The TypeError JavaScript raises when calling a method a value lacks. */
  function NotAFunction(expr: string): Failure {
    Thrown(expr + " is not a function")
  }

  /** The deterministic upstream: `fetch` answers each request, `encode` is
      `encodeURIComponent`, and `pageBudget` bounds how many pages of one
      listing the model follows before it reports the listing as hanging. */
  datatype Oracle = Oracle(fetch: Request -> Result<Json, Failure>, encode: string -> string, pageBudget: nat)

  /** What an operation produced, and the upstream calls it issued, in the
      order a sequential run issues them. */
  datatype Reply<T> = Reply(result: Result<T, Failure>, calls: seq<Request>)

  /** `fetchJson`: one call; its outcome is the oracle's. */
  function FetchJson(o: Oracle, req: Request): (r: Reply<Json>)
    ensures r.calls == [req]
    ensures r.result == o.fetch(req)
  {
    Reply(o.fetch(req), [req])
  }

  /** `Promise.all` over settled outcomes: all values in order when every
      member succeeds; otherwise a rejection if any member rejects (the first
      in index order), and a hang only if no member rejects. */
  function JoinAll<T>(rs: seq<Result<T, Failure>>): (r: Result<seq<T>, Failure>)
    ensures r.Success? <==> forall i :: 0 <= i < |rs| ==> rs[i].Success?
    ensures r.Success? ==> |r.value| == |rs| && forall i :: 0 <= i < |rs| ==> r.value[i] == rs[i].value
    ensures r.Failure? && r.error.Hang? ==> forall i :: 0 <= i < |rs| && rs[i].Failure? ==> rs[i].error.Hang?
    ensures r.Failure? && !r.error.Hang? ==>
      exists i :: 0 <= i < |rs| && rs[i] == Failure(r.error) &&
        forall j :: 0 <= j < i ==> rs[j].Success? || rs[j].error.Hang?
  {
    if |rs| == 0 then Success([])
    else
      var rest := JoinAll(rs[1..]);
      match rs[0]
      case Failure(e) =>
        if e.Hang? && rest.Failure? then rest else Failure(e)
      case Success(v) =>
        match rest
        case Success(vs) => Success([v] + vs)
        case Failure(e) => Failure(e)
  }
}

=== FILE: wrappers.dfy ===
/** Failure-compatible wrappers used throughout the model. */
module Wrappers {

  /** `None` stands for JavaScript's `undefined` wherever a value may be absent. */
  datatype Option<+T> = None | Some(value: T) {
    predicate IsFailure() { None? }

    function PropagateFailure<U>(): Option<U>
      requires None?
    {
      None
    }

    function Extract(): T
      requires Some?
    {
      value
    }

    function GetOr(default: T): T {
      match this
      case Some(v) => v
      case None => default
    }
  }

  datatype Result<+R, +E> = Success(value: R) | Failure(error: E) {
    predicate IsFailure() { Failure? }

    function PropagateFailure<U>(): Result<U, E>
      requires Failure?
    {
      Failure(error)
    }

    function Extract(): R
      requires Success?
    {
      value
    }
  }
}
